=== FILE: README.md ===
# trainspotting, modelled in Dafny

A model of the injection engine of `trainspotting`, a Python dependency-injection
library, together with proofs about it. It covers four parts:

- **`SingletonDependenciesContainer`** (`Containers`).
  - It is an insertion-ordered registry from a type to a zero-argument factory (`OrderedMaps`).
  - `set` constructs a class once, eagerly, and stores a function partially applied.
  - `connect` walks the client entries in insertion order and stops at the first failure.
  - `disconnect` walks them in reverse, catches and logs every failure, and goes on.
  - `async with` connects on entry and disconnects on exit.
  - Connect and disconnect are modelled as event traces.
- **`DependencyInjector`** (`Injector`, with the proofs in `InjectorFacts`).
  - `inject` is memoised. It normalises the type and reads the declared fields.
  - A bound `Type[P]` field receives the implementation itself.
  - A bound instance field receives the result of injecting the implementation and calling its factory.
  - Unbound fields are skipped.
  - A binding that fails the interface check raises `InjectionError`, and a `TypeError` is wrapped into one.
  - The type is then registered with the collected keyword arguments.
  - `lazy_inject` queues a postponed injection. `do_lazy_injections` runs the queue last-in first-out. `add_config` merges bindings, with the right-hand side winning.
- **`EnvField` and `factory`** (`Factory`).
  - `EnvField.get` follows a four-way decision table: the value is present, absent with a default, absent and optional, or absent and required.
  - The `factory` wrapper resolves its fields on a call and writes the results back into its own keyword arguments, so they are resolved at most once.
  - A field that resolves to `MISSING` is dropped.
  - Call-time keyword arguments take precedence.
- **`match_interface` and `first`** (`Utils`).

Python reflection is replaced by explicit data: a `World` record (`Reflect`). It gives each type's declared fields (`get_type_hints`, inherited ones included) and `get_origin`. It also gives the abstract predicates `issubclass`, runtime-checkability and the client-protocol check, and says of each callable whether it is a class (`isinstance(obj, type)`), a plain function (`inspect.isfunction`) or neither (a subscripted generic such as `G[int]`, a `functools.partial`, a bound method). Finally, it says which keyword arguments a class or function accepts without raising `TypeError`. Objects live in a heap (a sequence of records), so "the same object" means "the same address". The interpreter's recursion depth is a `fuel`/`limit` number. Running out of it is the `RecursionLimit` error, which stands for `RecursionError`.

A failed connect is not followed by a disconnect. `__aenter__` awaits `connect` (trainspotting/containers.py:89-90). When a client's `connect` raises, the exception leaves `async with` before the body runs, and `__aexit__` is never reached. `Containers.Scope` models exactly that: no client is disconnected, not even the ones already connected.

A plain function stored in the container is represented by the record of each call. Calling it appends a record (the function and its keyword arguments) to the heap, and the value it returns is represented by that record. What the function body computes, for instance handing back one of its arguments, is not modelled.

## Model

| member | source | states |
|---|---|---|
| OrderedMaps.Get | trainspotting/containers.py:66-67 | a lookup finds a value exactly for a registered key, and the value found is that key's entry; a type never set reads as None |
| OrderedMaps.Set | trainspotting/containers.py:54-64 | assigning a key makes it read back the new value and leaves every other key's value as it was; an existing key keeps its position and a new key goes last |
| OrderedMaps.SetAppendsNewKey | trainspotting/containers.py:54-64 | assigning a key not yet present appends exactly one entry at the end |
| OrderedMaps.SetKeepsValid | trainspotting/containers.py:51 | the OrderedDict never holds a key twice, however often keys are re-assigned |
| OrderedMaps.Remove | trainspotting/factory.py:63 | `pop(name)` removes that key, leaves every other key's value alone and introduces no new entry |
| OrderedMaps.RemoveKeepsValid | trainspotting/factory.py:63 | popping a key never creates a duplicate key |
| OrderedMaps.ToMap | trainspotting/factory.py:65 | unpacking a dict (`{**d}`) keeps exactly its keys, each with the value a lookup finds |
| Utils.MatchInterface | trainspotting/utils.py:35-41 | when `issubclass` does not raise (a class checked against a checkable interface) the answer is the subtype relation in both modes; when it raises (an implementation that is not a class, such as a function, a generic alias or a partial, or an uncheckable interface) it is False in strict mode and True in lenient mode |
| Utils.StrictImpliesLenient | trainspotting/utils.py:35-41 | strict validation never accepts a binding that lenient validation rejects |
| Utils.ModesDifferOnlyWhenUncheckable | trainspotting/utils.py:37-41 | the two modes disagree exactly when the subclass check raises: for every implementation that is not a class, and for every interface that is not runtime-checkable |
| Utils.NonClassBindingExample | trainspotting/utils.py:35-41 | an implementation that is not a class (a function, a generic alias, a partial) bound to a checkable interface is rejected in strict mode and accepted in lenient mode, whatever the subtype relation says |
| Utils.First | trainspotting/utils.py:11-13 | the first element of a non-empty sequence, StopIteration on an empty one |
| Containers.Set | trainspotting/containers.py:54-64 | `set` fails exactly when anything other than a plain function rejects the arguments, with TypeError; a function is stored partially applied with nothing constructed; anything else (a class, or another callable) is called once and gets exactly one new object, from these arguments, and its factory returns it; other entries are unchanged; the key keeps its place or goes last |
| Containers.Call | trainspotting/containers.py:56-64 | calling a class's stored factory returns its one object and constructs nothing; calling a function's runs the function with the stored arguments or raises TypeError |
| Containers.SetClassOnce | trainspotting/containers.py:57-64 | the object is built inside `set`, and every later call of the factory, at any heap, hands out that same object |
| Containers.SetFunctionCallsAnew | trainspotting/containers.py:55-56 | `set` does not call a function; each call of its factory runs the function again, with the stored arguments |
| Containers.SetKeepsWellFormed | trainspotting/containers.py:51-64 | every container built by `set` has unique keys, functions stored as partials of themselves and classes as singletons of live objects of that class |
| Containers.EmptyWellFormed | trainspotting/containers.py:50-52 | a new container is well formed |
| Containers.HeapGrowthKeepsWellFormed | trainspotting/containers.py:56 | objects created after an entry was set leave every entry well formed |
| Containers.Items | trainspotting/containers.py:95-97 | iteration yields the keys in insertion order, each with the factory `get` returns for it |
| Containers.ClientEntriesAreSingletons | trainspotting/containers.py:69-73 | a client entry is a class (`is_client` answers False for anything else), never a function, so `injected()` is a pure lookup of the singleton |
| Containers.ConnectAll | trainspotting/containers.py:69-73 | `connect` calls exactly the client entries, in insertion order, up to and including the first that fails, whose error propagates; nothing is disconnected |
| Containers.DisconnectAllAttemptsEveryClient | trainspotting/containers.py:75-83 | every client in the sequence is disconnected, in order, failures included; exactly the failing ones are logged; nothing is connected |
| Containers.Disconnect | trainspotting/containers.py:75-83 | `disconnect` attempts the clients in exact reverse insertion order and logs exactly the failing ones, in that order |
| Containers.Scope | trainspotting/containers.py:76-93 | a failed connect ends the scope with no disconnect; otherwise every client of the container at entry is connected, `__aexit__` disconnects every client of the container as the body left it, in reverse insertion order, and the body's exception propagates; when the body only added keys, the clients it added are disconnected first, never having been connected, and then the connected ones in reverse connect order |
| Containers.ScopeReversesConnects | trainspotting/containers.py:76-93 | when the body registers no new type, the disconnect order is exactly the reverse of the connect order |
| Containers.LateClientExample | trainspotting/containers.py:76-93 | a client registered inside the scope of an empty container is disconnected at exit although it was never connected |
| Containers.ConnectOrderExample | tests/test_containers.py:38-70 | with clients 1, 2, 4 and non-client 3 registered in that order, the scope connects 1, 2, 4 and disconnects 4, 2, 1 |
| Injector.RunInject | trainspotting/injector.py:43-56 | `inject` changes only the container; on success the normalised type is registered with the returned factory; no raw TypeError escapes |
| Injector.InjectRegisters | trainspotting/injector.py:43-56 | at any depth, a successful injection leaves the normalised type registered with the returned factory, and every TypeError has been wrapped into InjectionError |
| Injector.AddConfig | trainspotting/injector.py:74-75 | the merged bindings have the keys of both; a key of the delta takes the delta's value, every other key keeps its old one; nothing else changes |
| Injector.LazyInject | trainspotting/injector.py:58-68 | `lazy_inject` adds one wrapper, bound to the raw target, and pushes exactly one postponed injection for it; the lazy bookkeeping stays consistent |
| Injector.CallLazy | trainspotting/injector.py:59-61 | before the flush a wrapper constructs its raw target directly, bypassing the container; after it, a wrapper whose target is a class hands out the container's singleton and constructs nothing |
| Injector.FlushUnfolds | trainspotting/injector.py:70-72 | one turn of the flush pops the last postponed injection and runs it; an exception ends the flush, a success rebinds that wrapper and the flush goes on |
| Injector.FlushIsLifo | trainspotting/injector.py:70-72 | the thunks run are taken off the back of the queue, in last-in first-out order, each once |
| Injector.FlushEmptiesQueue | trainspotting/injector.py:70-72 | a flush that does not raise leaves the queue empty; with nothing queued it does nothing; one that raises ran the failing thunk |
| Injector.FlushKeepsSettings | trainspotting/injector.py:70-72 | a flush changes neither the bindings, the validation mode, the depth limit nor the number of wrappers |
| Injector.FlushKeepsLazyValid | trainspotting/injector.py:63-72 | after a flush, every still-queued injection owns a distinct wrapper that still holds its raw target |
| Injector.FlushFrame | trainspotting/injector.py:63-72 | a flush rebinds only the wrappers of the injections it ran |
| InjectorFacts.InjectGrows | trainspotting/injector.py:77-116 | injection never removes, replaces or reorders a container entry or an object; what was registered before an exception stays |
| InjectorFacts.ProvideGrows | trainspotting/injector.py:113 | providing an instance field only adds to the container |
| InjectorFacts.ProvideProduces | trainspotting/injector.py:113 | the argument an instance field receives is what the implementation's registered factory produces |
| InjectorFacts.FirstFieldStep | trainspotting/injector.py:81-113 | a field loop turn that does not raise wires its field, adds its name exactly when the field is bound, and keeps the other arguments; a class reference or an unbound field leaves the container untouched |
| InjectorFacts.InjectFieldsWires | trainspotting/injector.py:79-113 | a finished field loop passes exactly the bound fields: each class reference as the bound implementation itself, each instance field as an object produced by the implementation's registered factory, each having passed the interface check |
| InjectorFacts.InjectAppends | trainspotting/injector.py:113-116 | for acyclic bindings, a successful injection of a new type resolves its fields first and then appends the type itself as the one last entry, a partial for a function, a fresh singleton for a class |
| InjectorFacts.InjectPostOrder | trainspotting/injector.py:111-116 | for acyclic bindings, every type an instance field depends on is registered before the injected type, which comes last; earlier entries stay in place |
| InjectorFacts.InjectWires | trainspotting/injector.py:77-116 | for acyclic bindings, the registered factory was built from exactly the bound fields, each wired as its binding calls for, and from no unbound field |
| InjectorFacts.CycleNeverRegisters | trainspotting/injector.py:43-113 | when two types (or one type and itself) each need the other through their first declared field, with bindings that pass the interface check, injecting either one raises RecursionError at every depth and leaves the container exactly as it was |
| InjectorFacts.InjectIdempotent | trainspotting/injector.py:43-49 | injecting a registered type again returns the same factory and changes nothing, whatever the bindings, mode or depth, and without reflecting again: any type hints, constructors or subtype relation give the same answer |
| InjectorFacts.InjectKeepsWellFormed | trainspotting/injector.py:77-116 | injection, successful or not, keeps the container's keys unique and each entry a partial of its own function or a singleton of a live object of its class |
| InjectorFacts.FlushKeepsWellFormed | trainspotting/injector.py:70-72 | a flush keeps the container well formed |
| InjectorFacts.CallLazyKeepsWellFormed | trainspotting/injector.py:59-61 | calling a lazy wrapper keeps the container well formed |
| InjectorFacts.InjectReflectionFails | trainspotting/injector.py:53-56 | a TypeError from reading the type hints surfaces as an InjectionError naming the type, with nothing registered |
| InjectorFacts.InjectConstructs | trainspotting/injector.py:53-56 | a function target's bad argument list surfaces only when its factory is called, as a plain TypeError; a class's becomes an InjectionError naming it, keeping its dependencies registered |
| InjectorFacts.RejectedFieldRaises | trainspotting/injector.py:89-94 | a binding that fails the interface check raises InjectionError at once, before anything is injected for that field |
| InjectorFacts.InjectPassesChecks | trainspotting/injector.py:89-109 | a successful injection passed the interface check of every bound field |
| InjectorFacts.FlushGrows | trainspotting/injector.py:70-72 | a flush only adds to the container |
| InjectorFacts.FlushRebinds | trainspotting/injector.py:63-72 | after a flush, every wrapper whose injection completed calls the container's factory for its target instead of the raw target |
| Factory.EnvGet | trainspotting/factory.py:35-47 | a set variable is coerced whatever the default; an unset one gives the default, or MISSING when optional, or FieldException naming the variable |
| Factory.EnvGetIsLocal | trainspotting/factory.py:36 | only the field's own variable is read |
| Factory.EnvGetMissingOrFails | trainspotting/factory.py:38-45 | MISSING comes exactly from an unset optional field without default, and an exception exactly from an unset required field without default |
| Factory.FieldsOf | trainspotting/factory.py:53-55 | the snapshot holds only fields of the arguments, under their names |
| Factory.FieldsOfComplete | trainspotting/factory.py:53-55 | the snapshot holds every field of the arguments |
| Factory.FieldsOfDistinct | trainspotting/factory.py:53-55 | the snapshot names each field once |
| Factory.WriteBack | trainspotting/factory.py:60-63 | a resolved value replaces the field, MISSING removes it, and no other argument changes |
| Factory.ResolveFieldsError | trainspotting/factory.py:57-63 | the loop raises exactly when some field's `get` raises, with the first such exception |
| Factory.ResolveFieldsWrites | trainspotting/factory.py:57-63 | the fields before the first failure are each written with their own result; the rest are untouched |
| Factory.ResolveFieldsFrame | trainspotting/factory.py:57-63 | arguments that are not among the fields are left alone |
| Factory.ResolveFieldsKeepsValid | trainspotting/factory.py:57-63 | resolving never makes an argument name appear twice |
| Factory.ResolvedAsExpected | trainspotting/factory.py:57-65 | after a complete resolution each argument is what an independent reading of the original arguments predicts: plain values as given, fields resolved, MISSING ones absent |
| Factory.FactoryCallArgs | trainspotting/factory.py:52-66 | a call that returns passes the call-time arguments as given and otherwise the factory's arguments, with fields resolved and MISSING ones left out |
| Factory.FactoryCallFails | trainspotting/factory.py:57-63 | a call raises exactly when some field's `get` raises, with the first such field's exception |
| Factory.FactorySecondCall | trainspotting/factory.py:57-63 | after a call that returned, the wrapper holds no field: later calls read no environment and change nothing |
| Factory.FactoryFailureKeepsWrites | trainspotting/factory.py:57-63 | a call that raises midway keeps the values it already wrote; the failing field and those after it are still fields |

## Left out

- `wraps` (trainspotting/utils.py:16-32) is left out. Factories are plain values, so the subclass identity that `wraps` creates is not modelled.
- `get_type_hints`, `get_origin`, `get_args`, `issubclass`, `isinstance(obj, type)`, `inspect.isfunction` and the constructors of user classes are abstracted into the `World` record. Constructors either succeed or raise TypeError. Exceptions a constructor raises other than TypeError are not modelled.
- `os.getenv` becomes the `env` map parameter.
- The coercion `obj_type(value)` is an abstract total function. A `ValueError` from bad input is not modelled.
- The body of `async with` is abstract: `Containers.Scope` takes the container the body leaves behind and the exception it raises, if any. What the body does besides is not modelled.
- Async/await and the logger are left out.
  - Connect and disconnect are sequential event traces, with a `DisconnectFailed` event for each caught failure.
  - Whether a client's own `connect`/`disconnect` succeeds is a parameter.
- The structural part of `is_client` (trainspotting/clients.py:17-21), whether a class has `connect` and `disconnect`, is the abstract `isClient`. `Containers.IsClient` adds that anything that is not a class makes `issubclass` raise and answers False.
- Only `SingletonDependenciesContainer` is modelled. The injector uses it directly rather than through `DependenciesContainerProtocol`.
- Positional `*args` of the lazy wrapper and of the `factory` wrapper are left out. Only keyword arguments are modelled, and a lazy wrapper is called with none.
- `factory`'s constructed object is abstract. The model gives the keyword arguments `obj_type` is called with.
- `Type[P]` with no arguments (a bare `Type` annotation) makes `first` raise StopIteration. The model keeps it unwrapped, as the code does.
- The interpreter's recursion limit is a depth number (`fuel`), and `RecursionError` is the `RecursionLimit` error. A cycle of bindings through the first declared fields recurses until the depth runs out and registers nothing (`InjectorFacts.CycleNeverRegisters`); other cycles have no lemma of their own.
- InjectorFacts.InjectAppends: stated only for acyclic bindings (`Ranked`). The rank is the well-founded measure the induction over nested injections needs, and `Ranked` asks it of every type, reachable or not. A cycle through the first declared fields never succeeds (`InjectorFacts.CycleNeverRegisters`). A binding that is cyclic only among types the injection never reaches is excluded too.
- InjectorFacts.InjectPostOrder: stated only for acyclic bindings (`Ranked`), for the same reason.
- InjectorFacts.InjectWires: stated only for acyclic bindings (`Ranked`), for the same reason.
- Containers.Call: a function's return value is represented by the record of the call, not computed. A function that returns an existing object, such as one of its arguments, is not modelled.
- Containers.SetFunctionCallsAnew: states that each call runs the function again. Whether two calls return the same object depends on the function body, which is not modelled.
- Factory.FactorySecondCall: values are never field objects in the model. In the source, a field whose default (or coerced value) is itself a field is written back as that field. It is then resolved, and the environment read, again on the next call.
- Injector.CallLazy: after the flush, it states the result only for a wrapper whose factory is a singleton. For a function target, its contract does not spell out the partial application's fresh object; `Containers.Call` states that.

=== FILE: base.dfy ===
/**
 Shared vocabulary of the model: opaque type ids, optional values, results,
 and the exceptions the library raises or lets through.
 */
module Base {

  /** An opaque id for anything the library reflects on or injects:
      a class, a plain function, a protocol, or a generic alias such as `Type[P]`. */
  type TypeId = nat

  datatype Option<+T> = None | Some(value: T)

  /** Why an `InjectionError` was raised. */
  datatype InjectionCause =
    | NotRealized(impl: TypeId, iface: TypeId)  // the bound implementation fails the interface match
    | FailedToInject(target: TypeId)            // a TypeError raised while injecting `target`

  /** The Python exceptions that matter to the core. */
  datatype Error =
    | TypeError                         // bad keyword arguments, or a non-checkable protocol in issubclass
    | StopIteration                     // `first` of an empty sequence
    | RecursionLimit                    // the interpreter's recursion limit (cyclic bindings)
    | InjectionError(cause: InjectionCause)
    | FieldException(varName: string)  // a required environment variable is missing
    | ClientError(client: TypeId)       // a client's own `connect` raised

  datatype Result<+T> = Ok(value: T) | Err(error: Error)

  function Reverse<T>(s: seq<T>): (r: seq<T>)
    ensures |r| == |s|
  {
    if |s| == 0 then [] else Reverse(s[1..]) + [s[0]]
  }

  /** The reversal reads the sequence back to front. */
  lemma {:induction false} ReverseIndex<T>(s: seq<T>)
    ensures forall i :: 0 <= i < |s| ==> Reverse(s)[i] == s[|s| - 1 - i]
  {
    if |s| > 0 {
      ReverseIndex(s[1..]);
      forall i | 0 <= i < |s| ensures Reverse(s)[i] == s[|s| - 1 - i] {
        if i < |s| - 1 {
          assert Reverse(s)[i] == Reverse(s[1..])[i];
        }
      }
    }
  }

  lemma ReverseMembers<T>(s: seq<T>)
    ensures forall x :: x in Reverse(s) <==> x in s
  {
    ReverseIndex(s);
    forall x | x in Reverse(s) ensures x in s {
      var i :| 0 <= i < |s| && Reverse(s)[i] == x;
      assert s[|s| - 1 - i] == x;
    }
    forall x | x in s ensures x in Reverse(s) {
      var i :| 0 <= i < |s| && s[i] == x;
      assert Reverse(s)[|s| - 1 - i] == x;
    }
  }

  lemma {:induction false} ReverseAppend<T>(a: seq<T>, b: seq<T>)
    ensures Reverse(a + b) == Reverse(b) + Reverse(a)
    decreases |a|
  {
    if |a| == 0 {
      assert a + b == b;
    } else {
      assert (a + b)[1..] == a[1..] + b;
      ReverseAppend(a[1..], b);
    }
  }

  lemma AppendAssoc<T>(x: seq<T>, y: seq<T>, z: seq<T>)
    ensures x + (y + z) == (x + y) + z
  {
  }
}

=== FILE: containers.dfy ===
/**
 `SingletonDependenciesContainer`: an insertion-ordered registry from a type
 to a zero-argument factory. A class is constructed once, when it is set;
 a function is stored with its keyword arguments partially applied. The
 container walks its client entries in insertion order to connect them and
 in reverse order to disconnect them.
 */
module Containers {
  import opened Base
  import opened Reflect
  import OM = OrderedMaps

  /** A zero-argument factory as stored by `set`. */
  datatype Factory =
    | Singleton(instance: Value)           // `constructor()` returning the object built by `set`
    | Partial(fn: TypeId, kwargs: Kwargs)  // `partial(fn, **kwargs)`

  type Deps = OM.Entries<TypeId, Factory>

  /** The container's registry together with the heap of objects created so far. */
  datatype Store = Store(deps: Deps, heap: Heap)

  const Empty: Store := Store([], [])

  /** `get`: the registered factory, or None. */
  function Get(s: Store, t: TypeId): Option<Factory> {
    OM.Get(s.deps, t)
  }

  /** `set(obj, **kwargs)`. */
  function Set(w: World, s: Store, t: TypeId, kwargs: Kwargs): (r: Result<Store>)
    ensures r.Ok? <==> IsFunction(w, t) || w.accepts(t, kwargs)
    ensures r.Err? ==> r.error == TypeError
    // a function is stored partially applied and is not called
    ensures r.Ok? && IsFunction(w, t) ==>
              r.value.heap == s.heap && Get(r.value, t) == Some(Partial(t, kwargs))
    // anything else (a class, or another callable) is called exactly once, here,
    // and its factory returns that object
    ensures r.Ok? && !IsFunction(w, t) ==>
              r.value.heap == s.heap + [ObjRecord(t, kwargs)]
              && Get(r.value, t) == Some(Singleton(Ref(|s.heap|)))
    ensures r.Ok? ==> forall t' :: t' != t ==> Get(r.value, t') == Get(s, t')
    // re-setting keeps the key's position; a new key goes last
    ensures r.Ok? ==>
              OM.Keys(r.value.deps) == (if t in OM.Keys(s.deps) then OM.Keys(s.deps) else OM.Keys(s.deps) + [t])
  {
    if IsFunction(w, t) then
      Ok(Store(OM.Set(s.deps, t, Partial(t, kwargs)), s.heap))
    else
      match Construct(w, s.heap, t, kwargs)
      case Err(e) => Err(e)
      case Ok((inst, heap)) => Ok(Store(OM.Set(s.deps, t, Singleton(inst)), heap))
  }

  /** Calling a stored factory: a singleton hands out its object and creates
      nothing; a partial application runs the function, which leaves a record
      of the run (the value it returns is that record's reference), or raises
      the TypeError of a bad argument list. */
  function Call(w: World, heap: Heap, f: Factory): (r: Result<(Value, Heap)>)
    ensures f.Singleton? ==> r == Ok((f.instance, heap))
    ensures f.Partial? ==> (r.Ok? <==> w.accepts(f.fn, f.kwargs))
    ensures f.Partial? && r.Ok? ==>
              r.value == (Ref(|heap|), heap + [ObjRecord(f.fn, f.kwargs)])
    ensures r.Err? ==> r.error == TypeError
  {
    match f
    case Singleton(v) => Ok((v, heap))
    case Partial(fn, kwargs) => Construct(w, heap, fn, kwargs)
  }

  /** A class is constructed once, by `set`: every later call of its factory
      hands out that same object and constructs nothing. */
  lemma SetClassOnce(w: World, s: Store, t: TypeId, kwargs: Kwargs, heap: Heap)
    requires !IsFunction(w, t) && Set(w, s, t, kwargs).Ok?
    ensures var s' := Set(w, s, t, kwargs).value;
      && s'.heap[|s.heap|] == ObjRecord(t, kwargs)
      && Call(w, heap, Get(s', t).value) == Ok((Ref(|s.heap|), heap))
  {
  }

  /** A function is not called by `set`; each call of its factory calls it
      anew, with the stored arguments: two calls are two runs of the function. */
  lemma SetFunctionCallsAnew(w: World, s: Store, t: TypeId, kwargs: Kwargs)
    requires IsFunction(w, t) && w.accepts(t, kwargs)
    ensures var s' := Set(w, s, t, kwargs).value; var f := Get(s', t).value;
      && s'.heap == s.heap
      && var c1 := Call(w, s'.heap, f);
      && c1.Ok? && c1.value.1 == s.heap + [ObjRecord(t, kwargs)]
      && var c2 := Call(w, c1.value.1, f);
      && c2.Ok? && c2.value.1 == s.heap + [ObjRecord(t, kwargs), ObjRecord(t, kwargs)]
  {
    var rec := ObjRecord(t, kwargs);
    assert Get(Set(w, s, t, kwargs).value, t) == Some(Partial(t, kwargs));
    AppendAssoc(s.heap, [rec], [rec]);
  }

  /** `__iter__`: the (type, factory) pairs in insertion order. */
  function Items(s: Store): (r: seq<(TypeId, Factory)>)
    requires OM.Valid(s.deps)
    ensures OM.Keys(r) == OM.Keys(s.deps)
    ensures forall i :: 0 <= i < |r| ==> Get(s, r[i].0) == Some(r[i].1)
  {
    ItemsAgreeWithGet(s.deps);
    s.deps
  }

  lemma {:induction false} ItemsAgreeWithGet(m: Deps)
    requires OM.Valid(m)
    ensures forall i :: 0 <= i < |m| ==> OM.Get(m, m[i].0) == Some(m[i].1)
    decreases |m|
  {
    if |m| > 0 {
      OM.DistinctKeys(m);
      ItemsAgreeWithGet(m[1..]);
      forall i | 0 < i < |m| ensures OM.Get(m, m[i].0) == Some(m[i].1) {
        assert m[i] == m[1..][i - 1];
        assert OM.Keys(m[1..])[i - 1] == m[i].0;
      }
    }
  }

  /** The shape every entry has when it was put there by `set`. */
  predicate EntryFits(w: World, heap: Heap, t: TypeId, f: Factory) {
    match f
    case Partial(fn, _) => IsFunction(w, t) && fn == t
    case Singleton(v) => !IsFunction(w, t) && v.Ref? && v.addr < |heap| && heap[v.addr].cls == t
  }

  ghost predicate WellFormed(w: World, s: Store) {
    && OM.Valid(s.deps)
    && forall e :: e in s.deps ==> EntryFits(w, s.heap, e.0, e.1)
  }

  /** Every container reached through `set` is well formed. */
  lemma SetKeepsWellFormed(w: World, s: Store, t: TypeId, kwargs: Kwargs)
    requires WellFormed(w, s)
    requires Set(w, s, t, kwargs).Ok?
    ensures WellFormed(w, Set(w, s, t, kwargs).value)
  {
    var s' := Set(w, s, t, kwargs).value;
    var f := Get(s', t).value;
    assert s'.deps == OM.Set(s.deps, t, f);
    assert s.heap <= s'.heap && EntryFits(w, s'.heap, t, f);
    OM.SetKeepsValid(s.deps, t, f);
    SetKeepsFits(w, s.heap, s'.heap, s.deps, t, f);
  }

  lemma SetKeepsFits(w: World, heap: Heap, heap': Heap, deps: Deps, t: TypeId, f: Factory)
    requires forall e :: e in deps ==> EntryFits(w, heap, e.0, e.1)
    requires heap <= heap' && EntryFits(w, heap', t, f)
    ensures forall e :: e in OM.Set(deps, t, f) ==> EntryFits(w, heap', e.0, e.1)
  {
    OM.SetEntries(deps, t, f);
    forall e | e in OM.Set(deps, t, f) ensures EntryFits(w, heap', e.0, e.1) {
      if e != (t, f) {
        assert EntryFits(w, heap, e.0, e.1);
      }
    }
  }

  /** A fresh container is well formed. */
  lemma EmptyWellFormed(w: World)
    ensures WellFormed(w, Empty)
  {
  }

  /** New objects (constructed, or records of function calls) do not disturb
      the entries: every singleton still points at a live object of its class. */
  lemma HeapGrowthKeepsWellFormed(w: World, s: Store, heap': Heap)
    requires WellFormed(w, s) && s.heap <= heap'
    ensures WellFormed(w, Store(s.deps, heap'))
  {
    forall e | e in s.deps ensures EntryFits(w, heap', e.0, e.1) {
      assert EntryFits(w, s.heap, e.0, e.1);
    }
  }

  /** `is_client`: a class implementing the client protocol. For anything that
      is not a class `issubclass` raises, and `is_client` answers False. */
  predicate IsClient(w: World, t: TypeId) {
    IsClass(w, t) && w.isClient(t)
  }

  /** Calling the factory of a client entry is a pure lookup: it is a singleton. */
  lemma ClientEntriesAreSingletons(w: World, s: Store, t: TypeId)
    requires WellFormed(w, s)
    requires IsClient(w, t) && Get(s, t).Some?
    ensures Get(s, t).value.Singleton?
    ensures forall heap :: Call(w, heap, Get(s, t).value) == Ok((Get(s, t).value.instance, heap))
  {
    assert (t, Get(s, t).value) in s.deps;
  }

  /** The clients among `ts`, in order. */
  function Clients(w: World, ts: seq<TypeId>): seq<TypeId> {
    if |ts| == 0 then []
    else (if IsClient(w, ts[0]) then [ts[0]] else []) + Clients(w, ts[1..])
  }

  lemma {:induction false} ClientsAppend(w: World, a: seq<TypeId>, b: seq<TypeId>)
    ensures Clients(w, a + b) == Clients(w, a) + Clients(w, b)
    decreases |a|
  {
    if |a| == 0 {
      assert a + b == b;
    } else {
      var h := if IsClient(w, a[0]) then [a[0]] else [];
      assert (a + b)[0] == a[0] && (a + b)[1..] == a[1..] + b;
      assert Clients(w, a + b) == h + Clients(w, a[1..] + b);
      ClientsAppend(w, a[1..], b);
      AppendAssoc(h, Clients(w, a[1..]), Clients(w, b));
    }
  }

  /** Filtering commutes with reversal. */
  lemma {:induction false} ClientsReverse(w: World, ts: seq<TypeId>)
    ensures Clients(w, Reverse(ts)) == Reverse(Clients(w, ts))
    decreases |ts|
  {
    if |ts| > 0 {
      ClientsReverse(w, ts[1..]);
      ClientsAppend(w, Reverse(ts[1..]), [ts[0]]);
      assert Clients(w, [ts[0]]) == if IsClient(w, ts[0]) then [ts[0]] else [];
      ReverseAppend(if IsClient(w, ts[0]) then [ts[0]] else [], Clients(w, ts[1..]));
    }
  }

  /** Observable lifecycle events. */
  datatype Event =
    | Connecting(t: TypeId)       // debug log, then `await injected().connect()`
    | Disconnecting(t: TypeId)    // debug log, then `await injected().disconnect()`
    | DisconnectFailed(t: TypeId) // `logger.exception`: the failure was caught

  datatype Run = Run(trace: seq<Event>, error: Option<Error>)

  /** The clients whose `connect` was called, in order. */
  function Connected(trace: seq<Event>): seq<TypeId> {
    if |trace| == 0 then []
    else (if trace[0].Connecting? then [trace[0].t] else []) + Connected(trace[1..])
  }

  /** The clients whose `disconnect` was called, in order. */
  function Disconnected(trace: seq<Event>): seq<TypeId> {
    if |trace| == 0 then []
    else (if trace[0].Disconnecting? then [trace[0].t] else []) + Disconnected(trace[1..])
  }

  /** The clients whose disconnect failure was logged, in order. */
  function FailedToDisconnect(trace: seq<Event>): seq<TypeId> {
    if |trace| == 0 then []
    else (if trace[0].DisconnectFailed? then [trace[0].t] else []) + FailedToDisconnect(trace[1..])
  }

  lemma ProjectionsAppend(a: seq<Event>, b: seq<Event>)
    ensures Connected(a + b) == Connected(a) + Connected(b)
    ensures Disconnected(a + b) == Disconnected(a) + Disconnected(b)
    ensures FailedToDisconnect(a + b) == FailedToDisconnect(a) + FailedToDisconnect(b)
  {
    ConnectedAppend(a, b);
    DisconnectedAppend(a, b);
    FailedAppend(a, b);
  }

  lemma {:induction false} ConnectedAppend(a: seq<Event>, b: seq<Event>)
    ensures Connected(a + b) == Connected(a) + Connected(b)
    decreases |a|
  {
    if |a| == 0 {
      assert a + b == b;
    } else {
      var h := if a[0].Connecting? then [a[0].t] else [];
      assert (a + b)[0] == a[0] && (a + b)[1..] == a[1..] + b;
      assert Connected(a + b) == h + Connected(a[1..] + b);
      ConnectedAppend(a[1..], b);
      AppendAssoc(h, Connected(a[1..]), Connected(b));
    }
  }

  lemma {:induction false} DisconnectedAppend(a: seq<Event>, b: seq<Event>)
    ensures Disconnected(a + b) == Disconnected(a) + Disconnected(b)
    decreases |a|
  {
    if |a| == 0 {
      assert a + b == b;
    } else {
      var h := if a[0].Disconnecting? then [a[0].t] else [];
      assert (a + b)[0] == a[0] && (a + b)[1..] == a[1..] + b;
      assert Disconnected(a + b) == h + Disconnected(a[1..] + b);
      DisconnectedAppend(a[1..], b);
      AppendAssoc(h, Disconnected(a[1..]), Disconnected(b));
    }
  }

  lemma {:induction false} FailedAppend(a: seq<Event>, b: seq<Event>)
    ensures FailedToDisconnect(a + b) == FailedToDisconnect(a) + FailedToDisconnect(b)
    decreases |a|
  {
    if |a| == 0 {
      assert a + b == b;
    } else {
      var h := if a[0].DisconnectFailed? then [a[0].t] else [];
      assert (a + b)[0] == a[0] && (a + b)[1..] == a[1..] + b;
      assert FailedToDisconnect(a + b) == h + FailedToDisconnect(a[1..] + b);
      FailedAppend(a[1..], b);
      AppendAssoc(h, FailedToDisconnect(a[1..]), FailedToDisconnect(b));
    }
  }

  /** Index of the first client whose `connect` fails, or |cs| if none does. */
  function FirstFailure(cs: seq<TypeId>, ok: TypeId -> bool): (k: nat)
    ensures k <= |cs|
    ensures forall j :: 0 <= j < k ==> ok(cs[j])
    ensures k < |cs| ==> !ok(cs[k])
  {
    if |cs| == 0 then 0
    else if !ok(cs[0]) then 0
    else 1 + FirstFailure(cs[1..], ok)
  }

  /** The clients among `cs` whose `disconnect` fails, in order. */
  function Failing(cs: seq<TypeId>, ok: TypeId -> bool): seq<TypeId> {
    if |cs| == 0 then []
    else (if ok(cs[0]) then [] else [cs[0]]) + Failing(cs[1..], ok)
  }

  /** The loop of `connect` over the entries `ts`; `ok(t)` is whether the
      client's own `connect` succeeds. The first failure aborts the rest. */
  function ConnectAll(w: World, ts: seq<TypeId>, ok: TypeId -> bool): (r: Run)
    ensures var cs := Clients(w, ts); var k := FirstFailure(cs, ok);
      && (k == |cs| ==> r.error.None? && Connected(r.trace) == cs)
      && (k < |cs| ==> r.error == Some(ClientError(cs[k])) && Connected(r.trace) == cs[..k + 1])
    ensures Disconnected(r.trace) == []
  {
    if |ts| == 0 then Run([], None)
    else if IsClient(w, ts[0]) then
      if ok(ts[0]) then
        var rest := ConnectAll(w, ts[1..], ok);
        ProjectionsAppend([Connecting(ts[0])], rest.trace);
        Run([Connecting(ts[0])] + rest.trace, rest.error)
      else
        Run([Connecting(ts[0])], Some(ClientError(ts[0])))
    else
      assert Clients(w, ts) == Clients(w, ts[1..]);
      ConnectAll(w, ts[1..], ok)
  }

  /** The loop of `disconnect` over the entries `ts` (already reversed); every
      failure is caught and logged, and the loop goes on. */
  function DisconnectAll(w: World, ts: seq<TypeId>, ok: TypeId -> bool): seq<Event> {
    if |ts| == 0 then []
    else if IsClient(w, ts[0]) then
      [Disconnecting(ts[0])] + (if ok(ts[0]) then [] else [DisconnectFailed(ts[0])])
      + DisconnectAll(w, ts[1..], ok)
    else
      DisconnectAll(w, ts[1..], ok)
  }

  /** Every client is attempted, in order, and exactly the failing ones are logged. */
  lemma DisconnectAllAttemptsEveryClient(w: World, ts: seq<TypeId>, ok: TypeId -> bool)
    ensures Disconnected(DisconnectAll(w, ts, ok)) == Clients(w, ts)
    ensures FailedToDisconnect(DisconnectAll(w, ts, ok)) == Failing(Clients(w, ts), ok)
    ensures Connected(DisconnectAll(w, ts, ok)) == []
  {
    DisconnectAllAttempts(w, ts, ok);
    DisconnectAllLogs(w, ts, ok);
  }

  /** The events of disconnecting one client. */
  lemma DisconnectEvents(t: TypeId, fail: bool)
    ensures var here := [Disconnecting(t)] + (if fail then [DisconnectFailed(t)] else []);
      && Disconnected(here) == [t] && Connected(here) == []
      && FailedToDisconnect(here) == (if fail then [t] else [])
  {
    var e := [Disconnecting(t)];
    assert e[1..] == [];
    if fail {
      var f := [DisconnectFailed(t)];
      assert f[1..] == [];
      ProjectionsAppend(e, f);
    } else {
      assert e + [] == e;
    }
  }

  lemma {:induction false} DisconnectAllAttempts(w: World, ts: seq<TypeId>, ok: TypeId -> bool)
    ensures Disconnected(DisconnectAll(w, ts, ok)) == Clients(w, ts)
    ensures Connected(DisconnectAll(w, ts, ok)) == []
    decreases |ts|
  {
    if |ts| > 0 {
      var rest := DisconnectAll(w, ts[1..], ok);
      DisconnectAllAttempts(w, ts[1..], ok);
      if IsClient(w, ts[0]) {
        var here := [Disconnecting(ts[0])] + (if ok(ts[0]) then [] else [DisconnectFailed(ts[0])]);
        assert DisconnectAll(w, ts, ok) == here + rest;
        DisconnectEvents(ts[0], !ok(ts[0]));
        ProjectionsAppend(here, rest);
      }
    }
  }

  lemma {:induction false} DisconnectAllLogs(w: World, ts: seq<TypeId>, ok: TypeId -> bool)
    ensures FailedToDisconnect(DisconnectAll(w, ts, ok)) == Failing(Clients(w, ts), ok)
    decreases |ts|
  {
    if |ts| > 0 {
      var rest := DisconnectAll(w, ts[1..], ok);
      DisconnectAllLogs(w, ts[1..], ok);
      var cs := Clients(w, ts);
      if IsClient(w, ts[0]) {
        assert cs == [ts[0]] + Clients(w, ts[1..]);
        assert cs[1..] == Clients(w, ts[1..]);
        var here := [Disconnecting(ts[0])] + (if ok(ts[0]) then [] else [DisconnectFailed(ts[0])]);
        assert DisconnectAll(w, ts, ok) == here + rest;
        DisconnectEvents(ts[0], !ok(ts[0]));
        assert Failing(cs, ok) == (if ok(ts[0]) then [] else [ts[0]]) + Failing(cs[1..], ok);
        ProjectionsAppend(here, rest);
      } else {
        assert cs == Clients(w, ts[1..]);
      }
    }
  }

  /** `connect`: connects the clients in insertion order, stopping at the first failure. */
  function Connect(w: World, s: Store, ok: TypeId -> bool): Run {
    ConnectAll(w, OM.Keys(s.deps), ok)
  }

  /** `disconnect`: attempts every client in reverse insertion order. */
  function Disconnect(w: World, s: Store, ok: TypeId -> bool): (r: seq<Event>)
    ensures Disconnected(r) == Reverse(Clients(w, OM.Keys(s.deps)))
    ensures FailedToDisconnect(r) == Failing(Reverse(Clients(w, OM.Keys(s.deps))), ok)
  {
    ClientsReverse(w, OM.Keys(s.deps));
    DisconnectAllAttemptsEveryClient(w, Reverse(OM.Keys(s.deps)), ok);
    DisconnectAll(w, Reverse(OM.Keys(s.deps)), ok)
  }

  /** `async with container: body`. `__aenter__` connects; when it raises, the
      body does not run and `__aexit__` is not called. Otherwise the body runs
      and `__aexit__` disconnects the container as the body left it: `sExit`
      is the container at exit and `body` the exception the body raises, if
      any, which then propagates. A client the body registered is
      disconnected, first, although it was never connected. */
  function Scope(w: World, s: Store, sExit: Store, connectOk: TypeId -> bool, disconnectOk: TypeId -> bool,
                 body: Option<Error>): (r: Run)
    ensures Connect(w, s, connectOk).error.Some? ==>
              r == Connect(w, s, connectOk) && Disconnected(r.trace) == []
    ensures Connect(w, s, connectOk).error.None? ==>
              && r.error == body
              && Connected(r.trace) == Clients(w, OM.Keys(s.deps))
              && Disconnected(r.trace) == Reverse(Clients(w, OM.Keys(sExit.deps)))
    // the body can only add keys (`set` keeps a key's place): the clients it
    // added come first, then the connected ones in reverse
    ensures Connect(w, s, connectOk).error.None? && OM.Keys(s.deps) <= OM.Keys(sExit.deps) ==>
              Disconnected(r.trace)
              == Reverse(Clients(w, OM.Keys(sExit.deps)[|OM.Keys(s.deps)|..])) + Reverse(Connected(r.trace))
  {
    var c := Connect(w, s, connectOk);
    if c.error.Some? then c
    else
      var d := Disconnect(w, sExit, disconnectOk);
      DisconnectAllAttemptsEveryClient(w, Reverse(OM.Keys(sExit.deps)), disconnectOk);
      ProjectionsAppend(c.trace, d);
      ClientsSplit(w, OM.Keys(s.deps), OM.Keys(sExit.deps));
      Run(c.trace + d, body)
  }

  /** The reversed clients of a key sequence extending `ks`: those of the
      extension first, then those of `ks` reversed. */
  lemma ClientsSplit(w: World, ks: seq<TypeId>, ke: seq<TypeId>)
    ensures ks <= ke ==>
      Reverse(Clients(w, ke)) == Reverse(Clients(w, ke[|ks|..])) + Reverse(Clients(w, ks))
  {
    if ks <= ke {
      assert ke == ks + ke[|ks|..];
      ClientsAppend(w, ks, ke[|ks|..]);
      ReverseAppend(Clients(w, ks), Clients(w, ke[|ks|..]));
    }
  }

  /** A body that registers nothing new: the disconnect order is exactly the
      reverse of the connect order. */
  lemma ScopeReversesConnects(w: World, s: Store, sExit: Store, connectOk: TypeId -> bool,
                              disconnectOk: TypeId -> bool, body: Option<Error>)
    requires OM.Keys(sExit.deps) == OM.Keys(s.deps)
    requires Connect(w, s, connectOk).error.None?
    ensures var r := Scope(w, s, sExit, connectOk, disconnectOk, body);
      Disconnected(r.trace) == Reverse(Connected(r.trace))
  {
  }

  /** A client registered inside the scope of an empty container is
      disconnected at exit without ever having been connected. */
  lemma LateClientExample(w: World, s: Store, sExit: Store, c: TypeId,
                            connectOk: TypeId -> bool, disconnectOk: TypeId -> bool)
    requires OM.Keys(s.deps) == [] && OM.Keys(sExit.deps) == [c]
    requires IsClient(w, c)
    ensures var r := Scope(w, s, sExit, connectOk, disconnectOk, None);
      Connected(r.trace) == [] && Disconnected(r.trace) == [c] && r.error.None?
  {
  }

  /** Three clients and one non-client, registered in the order 1, 2, 3, 4
      with 3 the non-client: a scope whose connects all succeed connects
      1, 2, 4 and then disconnects 4, 2, 1. */
  lemma {:induction false} ConnectOrderExample(w: World, s: Store, disconnectOk: TypeId -> bool, body: Option<Error>)
    requires OM.Keys(s.deps) == [1, 2, 3, 4]
    requires IsClass(w, 1) && IsClass(w, 2) && IsClass(w, 4)
    requires w.isClient(1) && w.isClient(2) && !w.isClient(3) && w.isClient(4)
    ensures var r := Scope(w, s, s, t => true, disconnectOk, body);
      && Connected(r.trace) == [1, 2, 4]
      && Disconnected(r.trace) == [4, 2, 1]
      && r.error == body
  {
    ExampleClients(w);
    assert FirstFailure([1, 2, 4], t => true) == 3;
    assert Reverse([1, 2, 4]) == [4, 2, 1];
  }

  lemma ExampleClients(w: World)
    requires IsClass(w, 1) && IsClass(w, 2) && IsClass(w, 4)
    requires w.isClient(1) && w.isClient(2) && !w.isClient(3) && w.isClient(4)
    ensures Clients(w, [1, 2, 3, 4]) == [1, 2, 4]
  {
    var ks := [1, 2, 3, 4];
    assert ks[1..] == [2, 3, 4] && ks[2..] == [3, 4] && ks[3..] == [4];
    assert Clients(w, [4][1..]) == [];
    assert Clients(w, ks[3..]) == [4];
    assert Clients(w, ks[2..]) == [4];
    assert Clients(w, ks[1..]) == [2, 4];
  }
}

=== FILE: factory.dfy ===
/**
 Environment-backed field values and the `factory` wrapper. An `EnvField`
 reads one environment variable and coerces it, falls back to its default,
 or reports the variable missing. `factory(obj_type, **factory_kwargs)`
 returns a wrapper that, on each call, resolves the fields still among its
 keyword arguments, writes the results back into those same arguments,
 and calls `obj_type` with them, call-time arguments taking precedence.
 */
module Factory {
  import opened Base
  import OM = OrderedMaps

  /** What `EnvField.get` returns: a value, or the `MISSING` sentinel. */
  datatype FieldValue<V> = Missing | Val(v: V)

  /** `EnvField(var_name, obj_type, default, optional)`; `default` is
      `MISSING` unless one was given (None included). A default that is
      itself a field object is not modelled: values are plain. */
  datatype EnvField<V> = EnvField(varName: string, objType: string -> V, default: FieldValue<V>, optional: bool)

  type Env = map<string, string>

  /** `EnvField.get`, reading the environment `env`. */
  function EnvGet<V>(f: EnvField<V>, env: Env): (r: Result<FieldValue<V>>)
    // present: the coerced value, whatever the default
    ensures f.varName in env ==> r == Ok(Val(f.objType(env[f.varName])))
    // absent with a default: the default
    ensures f.varName !in env && f.default.Val? ==> r == Ok(f.default)
    // absent, no default, optional: MISSING
    ensures f.varName !in env && f.default.Missing? && f.optional ==> r == Ok(Missing)
    // absent, no default, required: FieldException naming the variable
    ensures f.varName !in env && f.default.Missing? && !f.optional ==> r == Err(FieldException(f.varName))
  {
    if f.varName !in env then
      if f.default.Missing? && !f.optional then Err(FieldException(f.varName))
      else Ok(f.default)
    else
      Ok(Val(f.objType(env[f.varName])))
  }

  /** Only the field's own variable matters. */
  lemma EnvGetIsLocal<V>(f: EnvField<V>, env1: Env, env2: Env)
    requires f.varName in env1 <==> f.varName in env2
    requires f.varName in env1 ==> env1[f.varName] == env2[f.varName]
    ensures EnvGet(f, env1) == EnvGet(f, env2)
  {
  }

  /** `MISSING` comes only from an optional field without a default, and an
      exception only from a required one, both with the variable unset. */
  lemma EnvGetMissingOrFails<V>(f: EnvField<V>, env: Env)
    ensures EnvGet(f, env) == Ok(Missing) <==> f.varName !in env && f.default.Missing? && f.optional
    ensures EnvGet(f, env).Err? <==> f.varName !in env && f.default.Missing? && !f.optional
  {
  }

  /** A keyword argument given to `factory`: a plain value, or a field. */
  datatype Arg<V> = Plain(v: V) | Field(f: EnvField<V>)

  type Args<V> = OM.Entries<string, Arg<V>>

  /** The wrapper `factory` returns; `kwargs` is the `factory_kwargs` dict it closes over. */
  datatype Wrapper<V> = Wrapper(kwargs: Args<V>)

  /** The fields among the arguments, in order: the `fields` snapshot of one call. */
  function FieldsOf<V>(kw: Args<V>): (fs: seq<(string, EnvField<V>)>)
    ensures forall i :: 0 <= i < |fs| ==> (fs[i].0, Field(fs[i].1)) in kw
  {
    if |kw| == 0 then [] else FieldOf(kw[0]) + FieldsOf(kw[1..])
  }

  /** What resolving one field writes back: its value, or nothing (`pop`). */
  function Resolved<V>(v: FieldValue<V>): Option<Arg<V>> {
    match v
    case Missing => None
    case Val(x) => Some(Plain(x))
  }

  /** The index of the first field whose `get` raises, or |fs|. */
  function FirstFieldError<V>(fs: seq<(string, EnvField<V>)>, env: Env): (k: nat)
    ensures k <= |fs|
    ensures forall i :: 0 <= i < k ==> EnvGet(fs[i].1, env).Ok?
    ensures k < |fs| ==> EnvGet(fs[k].1, env).Err?
  {
    if |fs| == 0 then 0
    else if EnvGet(fs[0].1, env).Err? then 0
    else 1 + FirstFieldError(fs[1..], env)
  }

  predicate DistinctFieldNames<V>(fs: seq<(string, EnvField<V>)>) {
    forall i, j :: 0 <= i < j < |fs| ==> fs[i].0 != fs[j].0
  }

  /** The loop over the snapshot: each field's result is written into
      `factory_kwargs` as it comes, and an exception stops the loop with the
      earlier writes kept. */
  function ResolveFields<V>(kw: Args<V>, fs: seq<(string, EnvField<V>)>, env: Env): (Args<V>, Option<Error>)
    decreases |fs|
  {
    if |fs| == 0 then (kw, None)
    else
      match EnvGet(fs[0].1, env)
      case Err(e) => (kw, Some(e))
      case Ok(v) => ResolveFields(WriteBack(kw, fs[0].0, v), fs[1..], env)
  }

  /** One iteration of the loop, when `get` returns: `factory_kwargs[name] = value`,
      or `factory_kwargs.pop(name)` for `MISSING`. */
  function WriteBack<V>(kw: Args<V>, name: string, v: FieldValue<V>): (r: Args<V>)
    ensures OM.Get(r, name) == Resolved(v)
    ensures forall n :: n != name ==> OM.Get(r, n) == OM.Get(kw, n)
  {
    match v
    case Missing => OM.Remove(kw, name)
    case Val(x) => OM.Set(kw, name, Plain(x))
  }

  predicate Unnamed<V>(fs: seq<(string, EnvField<V>)>, n: string) {
    forall i :: 0 <= i < |fs| ==> fs[i].0 != n
  }

  /** The loop stops at the first field whose `get` raises, with that exception. */
  lemma {:induction false} ResolveFieldsError<V>(kw: Args<V>, fs: seq<(string, EnvField<V>)>, env: Env)
    ensures var r := ResolveFields(kw, fs, env); var k := FirstFieldError(fs, env);
      && (r.1.None? <==> k == |fs|)
      && (k < |fs| ==> r.1 == Some(EnvGet(fs[k].1, env).error))
    decreases |fs|
  {
    if |fs| > 0 && EnvGet(fs[0].1, env).Ok? {
      var kw1 := WriteBack(kw, fs[0].0, EnvGet(fs[0].1, env).value);
      assert ResolveFields(kw, fs, env) == ResolveFields(kw1, fs[1..], env);
      var k := FirstFieldError(fs[1..], env);
      assert FirstFieldError(fs, env) == 1 + k;
      ResolveFieldsError(kw1, fs[1..], env);
      if k < |fs[1..]| {
        assert fs[1..][k] == fs[k + 1];
      }
    }
  }

  /** Arguments that are not among the fields are left alone. */
  lemma {:induction false} ResolveFieldsFrame<V>(kw: Args<V>, fs: seq<(string, EnvField<V>)>, env: Env, n: string)
    requires Unnamed(fs, n)
    ensures OM.Get(ResolveFields(kw, fs, env).0, n) == OM.Get(kw, n)
    decreases |fs|
  {
    if |fs| > 0 && EnvGet(fs[0].1, env).Ok? {
      assert Unnamed(fs[1..], n) by {
        forall i | 0 <= i < |fs[1..]| ensures fs[1..][i].0 != n {
          assert fs[1..][i] == fs[i + 1];
        }
      }
      ResolveFieldsFrame(WriteBack(kw, fs[0].0, EnvGet(fs[0].1, env).value), fs[1..], env, n);
    }
  }

  /** The loop resolves exactly the fields before the first failure, each to
      its own result; the failing field and those after it are untouched. */
  lemma {:induction false} ResolveFieldsWrites<V>(kw: Args<V>, fs: seq<(string, EnvField<V>)>, env: Env)
    requires DistinctFieldNames(fs)
    ensures var r := ResolveFields(kw, fs, env); var k := FirstFieldError(fs, env);
      && (forall i :: 0 <= i < k ==> OM.Get(r.0, fs[i].0) == Resolved(EnvGet(fs[i].1, env).value))
      && (forall i :: k <= i < |fs| ==> OM.Get(r.0, fs[i].0) == OM.Get(kw, fs[i].0))
    decreases |fs|
  {
    if |fs| > 0 && EnvGet(fs[0].1, env).Ok? {
      var kw1 := WriteBack(kw, fs[0].0, EnvGet(fs[0].1, env).value);
      var tail := fs[1..];
      assert DistinctFieldNames(tail);
      ResolveFieldsWrites(kw1, tail, env);
      assert Unnamed(tail, fs[0].0) by {
        forall i | 0 <= i < |tail| ensures tail[i].0 != fs[0].0 {
          assert tail[i] == fs[i + 1];
        }
      }
      ResolveFieldsFrame(kw1, tail, env, fs[0].0);
      var r := ResolveFields(kw, fs, env);
      assert r == ResolveFields(kw1, tail, env);
      var k := FirstFieldError(fs, env);
      assert k == 1 + FirstFieldError(tail, env);
      forall i | 0 <= i < k ensures OM.Get(r.0, fs[i].0) == Resolved(EnvGet(fs[i].1, env).value) {
        if i > 0 {
          assert tail[i - 1] == fs[i];
        }
      }
      forall i | k <= i < |fs| ensures OM.Get(r.0, fs[i].0) == OM.Get(kw, fs[i].0) {
        assert tail[i - 1] == fs[i];
        assert fs[i].0 != fs[0].0;
      }
    }
  }

  lemma {:induction false} WriteBackKeepsValid<V>(kw: Args<V>, name: string, v: FieldValue<V>)
    requires OM.Valid(kw)
    ensures OM.Valid(WriteBack(kw, name, v))
  {
    match v {
      case Missing => OM.RemoveKeepsValid(kw, name);
      case Val(x) => OM.SetKeepsValid(kw, name, Plain(x));
    }
  }

  lemma {:induction false} ResolveFieldsKeepsValid<V>(kw: Args<V>, fs: seq<(string, EnvField<V>)>, env: Env)
    requires OM.Valid(kw)
    ensures OM.Valid(ResolveFields(kw, fs, env).0)
    decreases |fs|
  {
    if |fs| > 0 && EnvGet(fs[0].1, env).Ok? {
      WriteBackKeepsValid(kw, fs[0].0, EnvGet(fs[0].1, env).value);
      ResolveFieldsKeepsValid(WriteBack(kw, fs[0].0, EnvGet(fs[0].1, env).value), fs[1..], env);
    }
  }

  /** The snapshot of one dict entry. */
  function FieldOf<V>(e: (string, Arg<V>)): seq<(string, EnvField<V>)> {
    match e.1
    case Field(f) => [(e.0, f)]
    case Plain(_) => []
  }

  lemma FieldsOfCons<V>(kw: Args<V>)
    requires |kw| > 0
    ensures FieldsOf(kw) == FieldOf(kw[0]) + FieldsOf(kw[1..])
  {
  }

  /** The snapshot holds every field of the dict. */
  lemma {:induction false} FieldsOfComplete<V>(kw: Args<V>)
    ensures forall n, f :: (n, Field(f)) in kw ==> (n, f) in FieldsOf(kw)
    decreases |kw|
  {
    if |kw| > 0 {
      FieldsOfComplete(kw[1..]);
      FieldsOfCons(kw);
      forall n, f | (n, Field(f)) in kw ensures (n, f) in FieldsOf(kw) {
        if (n, Field(f)) != kw[0] {
          assert (n, Field(f)) in kw[1..];
        }
      }
    }
  }

  /** Every snapshot name is a key of the dict. */
  lemma {:induction false} FieldsOfNames<V>(kw: Args<V>)
    ensures forall i :: 0 <= i < |FieldsOf(kw)| ==> FieldsOf(kw)[i].0 in OM.Keys(kw)
    decreases |kw|
  {
    if |kw| > 0 {
      FieldsOfNames(kw[1..]);
      FieldsOfCons(kw);
      OM.KeysCons(kw);
      var fs := FieldsOf(kw);
      var head := FieldOf(kw[0]);
      forall i | 0 <= i < |fs| ensures fs[i].0 in OM.Keys(kw) {
        if i >= |head| {
          assert fs[i] == FieldsOf(kw[1..])[i - |head|];
        }
      }
    }
  }

  /** The snapshot of a dict names each field once. */
  lemma {:induction false} FieldsOfDistinct<V>(kw: Args<V>)
    requires OM.Valid(kw)
    ensures DistinctFieldNames(FieldsOf(kw))
    decreases |kw|
  {
    if |kw| > 0 {
      OM.DistinctKeys(kw);
      OM.KeysCons(kw);
      FieldsOfDistinct(kw[1..]);
      FieldsOfNames(kw[1..]);
      FieldsOfCons(kw);
      DistinctAfterHead(FieldOf(kw[0]), FieldsOf(kw[1..]), kw[0].0);
    }
  }

  /** At most one entry named `n` in front of entries named otherwise. */
  lemma DistinctAfterHead<V>(head: seq<(string, EnvField<V>)>, tail: seq<(string, EnvField<V>)>, n: string)
    requires |head| <= 1 && forall i :: 0 <= i < |head| ==> head[i].0 == n
    requires forall i :: 0 <= i < |tail| ==> tail[i].0 != n
    requires DistinctFieldNames(tail)
    ensures DistinctFieldNames(head + tail)
  {
    var fs := head + tail;
    forall i, j | 0 <= i < j < |fs| ensures fs[i].0 != fs[j].0 {
      assert fs[j] == tail[j - |head|];
      if i >= |head| {
        assert fs[i] == tail[i - |head|];
      }
    }
  }

  /** A dict holding no field yields an empty snapshot. */
  lemma {:induction false} NoFieldsLeft<V>(kw: Args<V>)
    requires OM.Valid(kw)
    requires forall n :: OM.Get(kw, n).Some? ==> OM.Get(kw, n).value.Plain?
    ensures FieldsOf(kw) == []
    decreases |kw|
  {
    if |kw| > 0 {
      OM.DistinctKeys(kw);
      OM.KeysCons(kw);
      assert OM.Get(kw, kw[0].0) == Some(kw[0].1);
      forall n | OM.Get(kw[1..], n).Some? ensures OM.Get(kw[1..], n).value.Plain? {
        assert n != kw[0].0;
        assert OM.Get(kw, n) == OM.Get(kw[1..], n);
      }
      NoFieldsLeft(kw[1..]);
    }
  }

  /** `_wrapper(**kwargs)`: resolve the fields still among `factory_kwargs`
      (mutating them), then call `obj_type(**{**factory_kwargs, **kwargs})`.
      The object built is left abstract: the result is the keyword
      arguments `obj_type` is called with. */
  function FactoryCall<V>(wr: Wrapper<V>, env: Env, call: map<string, Arg<V>>): (Wrapper<V>, Result<map<string, Arg<V>>>) {
    var (kw, err) := ResolveFields(wr.kwargs, FieldsOf(wr.kwargs), env);
    (Wrapper(kw), match err case Some(e) => Err(e) case None => Ok(OM.ToMap(kw) + call))
  }

  /** What one call passes for `n`, read off the factory arguments alone: a
      plain value as it is, a field as its `get` resolves it, nothing for
      `MISSING`. */
  function Expected<V>(kw: Args<V>, env: Env, n: string): Option<Arg<V>> {
    var a := OM.Get(kw, n);
    if a.None? || a.value.Plain? then a
    else if EnvGet(a.value.f, env).Ok? then Resolved(EnvGet(a.value.f, env).value)
    else None
  }

  /** After a complete resolution the arguments read exactly as `Expected`. */
  lemma ResolvedAsExpected<V>(kw: Args<V>, env: Env, n: string)
    requires OM.Valid(kw)
    requires FirstFieldError(FieldsOf(kw), env) == |FieldsOf(kw)|
    ensures OM.Get(ResolveFields(kw, FieldsOf(kw), env).0, n) == Expected(kw, env, n)
  {
    var a := OM.Get(kw, n);
    if a.Some? && a.value.Field? {
      ResolvedFieldAsExpected(kw, env, n, a.value.f);
      assert Expected(kw, env, n) == Resolved(EnvGet(a.value.f, env).value);
    } else {
      UntouchedAsExpected(kw, env, n);
      assert Expected(kw, env, n) == a;
    }
  }

  /** A field of the dict: the loop wrote its resolved value back. */
  lemma ResolvedFieldAsExpected<V>(kw: Args<V>, env: Env, n: string, f: EnvField<V>)
    requires OM.Valid(kw)
    requires FirstFieldError(FieldsOf(kw), env) == |FieldsOf(kw)|
    requires OM.Get(kw, n) == Some(Field(f))
    ensures EnvGet(f, env).Ok?
    ensures OM.Get(ResolveFields(kw, FieldsOf(kw), env).0, n) == Resolved(EnvGet(f, env).value)
  {
    var fs := FieldsOf(kw);
    FieldsOfComplete(kw);
    assert (n, Field(f)) in kw;
    assert (n, f) in fs;
    var i :| 0 <= i < |fs| && fs[i] == (n, f);
    FieldsOfDistinct(kw);
    ResolveFieldsWrites(kw, fs, env);
  }

  /** Not a field of the dict: the loop never touched it. */
  lemma UntouchedAsExpected<V>(kw: Args<V>, env: Env, n: string)
    requires OM.Valid(kw)
    requires OM.Get(kw, n).None? || OM.Get(kw, n).value.Plain?
    ensures OM.Get(ResolveFields(kw, FieldsOf(kw), env).0, n) == OM.Get(kw, n)
  {
    var fs := FieldsOf(kw);
    forall i | 0 <= i < |fs| ensures fs[i].0 != n {
      OM.ValidGet(kw, fs[i].0, Field(fs[i].1));
    }
    ResolveFieldsFrame(kw, fs, env, n);
  }

  /** One call of the wrapper: call-time arguments win; every other argument
      is the factory's, with each field replaced by its resolved value and
      left out when it resolved to `MISSING`. */
  lemma FactoryCallArgs<V>(wr: Wrapper<V>, env: Env, call: map<string, Arg<V>>)
    requires OM.Valid(wr.kwargs)
    ensures var r := FactoryCall(wr, env, call);
      r.1.Ok? ==> forall n ::
        && (n in call ==> n in r.1.value && r.1.value[n] == call[n])
        && (n !in call ==> (n in r.1.value <==> Expected(wr.kwargs, env, n).Some?))
        && (n !in call && n in r.1.value ==> r.1.value[n] == Expected(wr.kwargs, env, n).value)
  {
    var fs := FieldsOf(wr.kwargs);
    ResolveFieldsError(wr.kwargs, fs, env);
    if FirstFieldError(fs, env) == |fs| {
      forall n ensures OM.Get(ResolveFields(wr.kwargs, fs, env).0, n) == Expected(wr.kwargs, env, n) {
        ResolvedAsExpected(wr.kwargs, env, n);
      }
    }
  }

  /** The call raises exactly when some field's `get` raises, with the
      exception of the first such field in argument order. */
  lemma FactoryCallFails<V>(wr: Wrapper<V>, env: Env, call: map<string, Arg<V>>)
    requires OM.Valid(wr.kwargs)
    ensures var r := FactoryCall(wr, env, call); var fs := FieldsOf(wr.kwargs);
      && (r.1.Err? <==> exists i :: 0 <= i < |fs| && EnvGet(fs[i].1, env).Err?)
      && (r.1.Err? ==> r.1.error == EnvGet(fs[FirstFieldError(fs, env)].1, env).error)
  {
    var fs := FieldsOf(wr.kwargs);
    ResolveFieldsError(wr.kwargs, fs, env);
  }

  /** A complete resolution leaves a valid dict holding no field. */
  lemma ResolvedHoldsNoField<V>(kw: Args<V>, env: Env)
    requires OM.Valid(kw)
    requires FirstFieldError(FieldsOf(kw), env) == |FieldsOf(kw)|
    ensures OM.Valid(ResolveFields(kw, FieldsOf(kw), env).0)
    ensures FieldsOf(ResolveFields(kw, FieldsOf(kw), env).0) == []
  {
    var fs := FieldsOf(kw);
    var kw' := ResolveFields(kw, fs, env).0;
    ResolveFieldsKeepsValid(kw, fs, env);
    forall n | OM.Get(kw', n).Some? ensures OM.Get(kw', n).value.Plain? {
      ResolvedAsExpected(kw, env, n);
    }
    NoFieldsLeft(kw');
  }

  /** Fields are resolved at most once: after a call that returned, the
      wrapper holds no field any more, so a later call reads no environment
      and changes nothing. */
  lemma FactorySecondCall<V>(wr: Wrapper<V>, env: Env, call: map<string, Arg<V>>, env': Env, call': map<string, Arg<V>>)
    requires OM.Valid(wr.kwargs)
    requires FactoryCall(wr, env, call).1.Ok?
    ensures var wr' := FactoryCall(wr, env, call).0;
      FactoryCall(wr', env', call') == (wr', Ok(OM.ToMap(wr'.kwargs) + call'))
  {
    var fs := FieldsOf(wr.kwargs);
    var kw' := ResolveFields(wr.kwargs, fs, env).0;
    assert FactoryCall(wr, env, call).0 == Wrapper(kw');
    ResolveFieldsError(wr.kwargs, fs, env);
    assert FirstFieldError(fs, env) == |fs|;
    ResolvedHoldsNoField(wr.kwargs, env);
    assert ResolveFields(kw', FieldsOf(kw'), env') == (kw', None);
  }

  /** A call that raises midway keeps what it wrote: the fields before the
      failing one are already resolved in the wrapper, the failing one and
      those after it are still fields. */
  lemma FactoryFailureKeepsWrites<V>(wr: Wrapper<V>, env: Env, call: map<string, Arg<V>>)
    requires OM.Valid(wr.kwargs)
    requires FactoryCall(wr, env, call).1.Err?
    ensures var kw' := FactoryCall(wr, env, call).0.kwargs;
      var fs := FieldsOf(wr.kwargs); var k := FirstFieldError(fs, env);
      && k < |fs|
      && (forall i :: 0 <= i < k ==> OM.Get(kw', fs[i].0) == Resolved(EnvGet(fs[i].1, env).value))
      && (forall i :: k <= i < |fs| ==> OM.Get(kw', fs[i].0) == Some(Field(fs[i].1)))
  {
    var fs := FieldsOf(wr.kwargs);
    ResolveFieldsError(wr.kwargs, fs, env);
    FieldsOfDistinct(wr.kwargs);
    ResolveFieldsWrites(wr.kwargs, fs, env);
    forall i | 0 <= i < |fs| ensures OM.Get(wr.kwargs, fs[i].0) == Some(Field(fs[i].1)) {
      OM.ValidGet(wr.kwargs, fs[i].0, Field(fs[i].1));
    }
  }
}

=== FILE: injector.dfy ===
/**
 `DependencyInjector`: builds object graphs from a binding configuration
 (interface -> implementation). Injecting a type reads its declared fields,
 resolves each bound one (a class reference as itself, an instance by
 injecting the implementation and calling its factory), and registers the
 type in the container with the resolved keyword arguments. Injection is
 memoised by the container. Lazy injection postpones the real injection to
 an explicit flush, which runs the postponed injections last-in first-out.
 */
module Injector {
  import opened Base
  import opened Reflect
  import opened Utils
  import opened Containers
  import OM = OrderedMaps

  /** `deps_cfg`. A value of None is a binding to Python's None. */
  type Config = map<TypeId, Option<TypeId>>

  /** What injection reads but never changes. */
  datatype Ctx = Ctx(w: World, cfg: Config, strict: bool)

  /** A result together with the container state reached, also on failure:
      entries registered before an exception are not rolled back. */
  datatype Step<T> = Step(res: Result<T>, store: Store)

  /** `deps_cfg.get(provider)`: absent keys and None bindings both read as None. */
  function Lookup(cfg: Config, p: TypeId): Option<TypeId> {
    if p in cfg then cfg[p] else None
  }

  /** `inject(obj)`, with `fuel` standing for the interpreter's remaining
      recursion depth. A type already in the container is returned at once;
      otherwise `_inject` runs, and a TypeError from it becomes an
      InjectionError naming the type. */
  function Inject(ctx: Ctx, fuel: nat, s: Store, t: TypeId): Step<Factory>
    decreases fuel, 2, 0
  {
    var n := Normalize(ctx.w, t);
    match Get(s, n)
    case Some(f) => Step(Ok(f), s)
    case None =>
      if fuel == 0 then Step(Err(RecursionLimit), s)
      else
        var r := InjectBody(ctx, fuel, s, n);
        if r.res == Err(TypeError) then Step(Err(InjectionError(FailedToInject(n))), r.store)
        else r
  }

  /** `_inject(obj)`: resolve the fields, then `deps.set(obj, **kwargs)` and
      return what the container now holds. */
  function InjectBody(ctx: Ctx, fuel: nat, s: Store, n: TypeId): Step<Factory>
    requires fuel > 0
    decreases fuel, 1, 0
  {
    match ctx.w.hints(n)
    case None => Step(Err(TypeError), s)
    case Some(fields) =>
      var r := InjectFields(ctx, fuel, s, fields, map[]);
      match r.res
      case Err(e) => Step(Err(e), r.store)
      case Ok(kwargs) =>
        (match Set(ctx.w, r.store, n, kwargs)
         case Err(e) => Step(Err(e), r.store)
         case Ok(s') => Step(Ok(Get(s', n).value), s'))
  }

  /** The loop of `_inject` over the declared fields, collecting keyword arguments. */
  function InjectFields(ctx: Ctx, fuel: nat, s: Store, fields: seq<FieldDecl>, kwargs: Kwargs): Step<Kwargs>
    requires fuel > 0
    decreases fuel, 0, |fields|
  {
    if |fields| == 0 then Step(Ok(kwargs), s)
    else
      var name := fields[0].name;
      match fields[0].kind
      case ClassRef(args) =>
        (match First(args)
         case Err(e) => Step(Err(e), s)
         case Ok(p) =>
           match Lookup(ctx.cfg, p)
           case None => InjectFields(ctx, fuel, s, fields[1..], kwargs)
           case Some(impl) =>
             if !MatchInterface(ctx.w, impl, p, ctx.strict) then
               Step(Err(InjectionError(NotRealized(impl, p))), s)
             else
               InjectFields(ctx, fuel, s, fields[1..], kwargs[name := ClassVal(impl)]))
      case Instance(a) =>
        var p := Normalize(ctx.w, a);
        match Lookup(ctx.cfg, p)
        case None => InjectFields(ctx, fuel, s, fields[1..], kwargs)
        case Some(impl) =>
          if !MatchInterface(ctx.w, impl, p, ctx.strict) then
            Step(Err(InjectionError(NotRealized(impl, p))), s)
          else
            var d := Provide(ctx, fuel - 1, s, impl);
            match d.res
            case Err(e) => Step(Err(e), d.store)
            case Ok(v) => InjectFields(ctx, fuel, d.store, fields[1..], kwargs[name := v])
  }

  /** `self.inject(provided_obj)()`: inject the implementation, then call the
      factory the container now holds for it. */
  function Provide(ctx: Ctx, fuel: nat, s: Store, impl: TypeId): Step<Value>
    decreases fuel, 3, 0
  {
    var d := Inject(ctx, fuel, s, impl);
    match d.res
    case Err(e) => Step(Err(e), d.store)
    case Ok(f) =>
      match Call(ctx.w, d.store.heap, f)
      case Err(e) => Step(Err(e), d.store)
      case Ok((v, heap)) => Step(Ok(v), Store(d.store.deps, heap))
  }

  /** The variable a lazy wrapper calls: the raw target until its postponed
      injection has run, the injected factory afterwards. */
  datatype LazyTarget = Raw(t: TypeId) | Injected(f: Factory)

  /** A postponed injection: inject `target` and rebind `cell` to the result. */
  datatype Thunk = Thunk(cell: nat, target: TypeId)

  /** The injector's state. `limit` is the recursion depth available to `inject`;
      `cells` holds the variables captured by lazy wrappers. */
  datatype Injector = Injector(
    cfg: Config,
    store: Store,
    strict: bool,
    limit: nat,
    cells: seq<LazyTarget>,
    postponed: seq<Thunk>)

  function NewInjector(cfg: Config, strict: bool, limit: nat): Injector {
    Injector(cfg, Empty, strict, limit, [], [])
  }

  function CtxOf(w: World, inj: Injector): Ctx {
    Ctx(w, inj.cfg, inj.strict)
  }

  datatype Outcome<T> = Outcome(inj: Injector, res: Result<T>)

  /** `DependencyInjector.inject`. */
  function RunInject(w: World, inj: Injector, t: TypeId): (r: Outcome<Factory>)
    ensures r.inj == inj.(store := r.inj.store)
    ensures r.res.Ok? ==> Get(r.inj.store, Normalize(w, t)) == Some(r.res.value)
    ensures r.res.Err? ==> r.res.error != TypeError
  {
    var step := Inject(CtxOf(w, inj), inj.limit, inj.store, t);
    InjectRegisters(CtxOf(w, inj), inj.limit, inj.store, t);
    Outcome(inj.(store := step.store), step.res)
  }

  /** A successful injection leaves the type registered under its normalised
      id, with the factory it returned; every TypeError has been wrapped. */
  lemma InjectRegisters(ctx: Ctx, fuel: nat, s: Store, t: TypeId)
    ensures var r := Inject(ctx, fuel, s, t);
      && (r.res.Ok? ==> Get(r.store, Normalize(ctx.w, t)) == Some(r.res.value))
      && (r.res.Err? ==> r.res.error != TypeError)
  {
  }

  /** `add_config`: `{**deps_cfg, **additional_cfg}`. */
  function AddConfig(inj: Injector, delta: Config): (r: Injector)
    ensures r == inj.(cfg := r.cfg)
    ensures r.cfg.Keys == inj.cfg.Keys + delta.Keys
    ensures forall p :: p in delta ==> r.cfg[p] == delta[p]
    ensures forall p :: p in inj.cfg && p !in delta ==> r.cfg[p] == inj.cfg[p]
  {
    inj.(cfg := inj.cfg + delta)
  }

  /** The lazy-injection bookkeeping: every postponed thunk owns its own cell,
      which still holds the raw target. */
  ghost predicate LazyValid(inj: Injector) {
    && (forall i :: 0 <= i < |inj.postponed| ==>
          && inj.postponed[i].cell < |inj.cells|
          && inj.cells[inj.postponed[i].cell] == Raw(inj.postponed[i].target))
    && (forall i, j :: 0 <= i < j < |inj.postponed| ==> inj.postponed[i].cell != inj.postponed[j].cell)
  }

  /** `lazy_inject(obj)`: returns a wrapper (its cell) and pushes one postponed injection. */
  function LazyInject(inj: Injector, t: TypeId): (r: (Injector, nat))
    ensures r.1 == |inj.cells| && r.0.cells == inj.cells + [Raw(t)]
    ensures r.0.postponed == inj.postponed + [Thunk(r.1, t)]
    ensures r.0 == inj.(cells := r.0.cells, postponed := r.0.postponed)
    ensures LazyValid(inj) ==> LazyValid(r.0)
  {
    var cell := |inj.cells|;
    (inj.(cells := inj.cells + [Raw(t)], postponed := inj.postponed + [Thunk(cell, t)]), cell)
  }

  /** Calling a lazy wrapper with no arguments: the raw target is constructed
      directly, bypassing the container; an injected factory is called. */
  function CallLazy(w: World, inj: Injector, cell: nat): (r: Outcome<Value>)
    requires cell < |inj.cells|
    ensures r.inj == inj.(store := Store(inj.store.deps, r.inj.store.heap))
    // before the flush: a fresh object of the raw target, or its TypeError
    ensures inj.cells[cell].Raw? ==>
              && (r.res.Ok? <==> w.accepts(inj.cells[cell].t, map[]))
              && (r.res.Ok? ==> r.res.value == Ref(|inj.store.heap|)
                                && r.inj.store.heap == inj.store.heap + [ObjRecord(inj.cells[cell].t, map[])])
    // after the flush: the injected singleton, with nothing constructed
    ensures inj.cells[cell].Injected? && inj.cells[cell].f.Singleton? ==>
              r == Outcome(inj, Ok(inj.cells[cell].f.instance))
  {
    var called := match inj.cells[cell]
      case Raw(t) => Construct(w, inj.store.heap, t, map[])
      case Injected(f) => Call(w, inj.store.heap, f);
    match called
    case Err(e) => Outcome(inj, Err(e))
    case Ok((v, heap)) => Outcome(inj.(store := Store(inj.store.deps, heap)), Ok(v))
  }

  /** What a flush did: the injector reached, the thunks run (in the order they
      ran), and the exception that stopped it, if any. */
  datatype Flush = Flush(inj: Injector, ran: seq<Thunk>, error: Option<Error>)

  /** `do_lazy_injections`: pop and run postponed injections until the queue is
      empty; an exception from one propagates and leaves the rest queued. */
  function DoLazyInjections(w: World, inj: Injector): Flush
    requires LazyValid(inj)
    decreases |inj.postponed|
  {
    if |inj.postponed| == 0 then Flush(inj, [], None)
    else
      var th := inj.postponed[|inj.postponed| - 1];
      var o := RunInject(w, inj.(postponed := inj.postponed[..|inj.postponed| - 1]), th.target);
      match o.res
      case Err(e) => Flush(o.inj, [th], Some(e))
      case Ok(f) =>
        PopKeepsLazyValid(inj, o.inj.store, f);
        var rest := DoLazyInjections(w, Rebind(o.inj, th.cell, f));
        Flush(rest.inj, [th] + rest.ran, rest.error)
  }

  /** `obj = self.inject(obj)` inside a postponed thunk. */
  function Rebind(inj: Injector, cell: nat, f: Factory): Injector
    requires cell < |inj.cells|
  {
    inj.(cells := inj.cells[cell := Injected(f)])
  }

  lemma PopKeepsLazyValid(inj: Injector, store: Store, f: Factory)
    requires LazyValid(inj) && |inj.postponed| > 0
    ensures var last := |inj.postponed| - 1;
      && inj.postponed[last].cell < |inj.cells|
      && LazyValid(Rebind(inj.(postponed := inj.postponed[..last], store := store), inj.postponed[last].cell, f))
  {
  }

  /** One turn of the flush: the last thunk is popped and its injection run;
      an exception ends the flush, a factory rebinds the thunk's wrapper and
      the flush carries on. */
  lemma FlushUnfolds(w: World, inj: Injector) returns (th: Thunk, o: Outcome<Factory>, next: Injector)
    requires LazyValid(inj) && |inj.postponed| > 0
    ensures th == inj.postponed[|inj.postponed| - 1]
    ensures o == RunInject(w, inj.(postponed := inj.postponed[..|inj.postponed| - 1]), th.target)
    ensures inj.postponed == o.inj.postponed + [th]
    ensures o.inj == inj.(postponed := o.inj.postponed, store := o.inj.store)
    ensures o.res.Err? ==> DoLazyInjections(w, inj) == Flush(o.inj, [th], Some(o.res.error))
    ensures o.res.Ok? ==>
              && th.cell < |o.inj.cells|
              && next == Rebind(o.inj, th.cell, o.res.value)
              && LazyValid(next)
              && var rest := DoLazyInjections(w, next);
              DoLazyInjections(w, inj) == Flush(rest.inj, [th] + rest.ran, rest.error)
  {
    var last := |inj.postponed| - 1;
    th := inj.postponed[last];
    o := RunInject(w, inj.(postponed := inj.postponed[..last]), th.target);
    assert inj.postponed == inj.postponed[..last] + [th];
    if o.res.Ok? {
      PopKeepsLazyValid(inj, o.inj.store, o.res.value);
      next := Rebind(o.inj, th.cell, o.res.value);
    } else {
      next := inj;
    }
  }

  /** The flush runs the postponed injections last-in first-out, each once:
      what it ran, read back to front, is what it took off the queue. */
  lemma {:induction false} FlushIsLifo(w: World, inj: Injector)
    requires LazyValid(inj)
    ensures var r := DoLazyInjections(w, inj);
      inj.postponed == r.inj.postponed + Reverse(r.ran)
    decreases |inj.postponed|
  {
    if |inj.postponed| > 0 {
      var th, o, next := FlushUnfolds(w, inj);
      if o.res.Ok? {
        var rest := DoLazyInjections(w, next);
        FlushIsLifo(w, next);
        PopThenRest(inj.postponed, o.inj.postponed, th, rest.inj.postponed, rest.ran);
      } else {
        PopThenRest(inj.postponed, o.inj.postponed, th, o.inj.postponed, []);
      }
    }
  }

  /** A flush that raises ran at least the failing thunk; one that does not
      raise leaves the queue empty; with nothing queued it does nothing. */
  lemma {:induction false} FlushEmptiesQueue(w: World, inj: Injector)
    requires LazyValid(inj)
    ensures var r := DoLazyInjections(w, inj);
      && (|inj.postponed| == 0 ==> r == Flush(inj, [], None))
      && (r.error.None? ==> r.inj.postponed == [])
      && (r.error.Some? ==> |r.ran| > 0)
    decreases |inj.postponed|
  {
    if |inj.postponed| > 0 {
      var th, o, next := FlushUnfolds(w, inj);
      if o.res.Ok? {
        FlushEmptiesQueue(w, next);
      }
    }
  }

  /** Popping `th` off the back and then running `ran` (back to front) takes
      `th` and `ran` off the back of the queue. */
  lemma PopThenRest<T>(queue: seq<T>, popped: seq<T>, th: T, left: seq<T>, ran: seq<T>)
    requires queue == popped + [th] && popped == left + Reverse(ran)
    ensures queue == left + Reverse([th] + ran)
  {
    ReverseAppend([th], ran);
    assert Reverse([th]) == [th];
  }

  /** A flush changes neither the bindings, the validation mode, the depth
      limit nor the number of wrappers. */
  lemma {:induction false} FlushKeepsSettings(w: World, inj: Injector)
    requires LazyValid(inj)
    ensures var r := DoLazyInjections(w, inj);
      && r.inj.cfg == inj.cfg && r.inj.strict == inj.strict && r.inj.limit == inj.limit
      && |r.inj.cells| == |inj.cells|
    decreases |inj.postponed|
  {
    var r := DoLazyInjections(w, inj);
    if |inj.postponed| > 0 {
      var last := |inj.postponed| - 1;
      var th := inj.postponed[last];
      var popped := inj.(postponed := inj.postponed[..last]);
      var o := RunInject(w, popped, th.target);
      if o.res.Ok? {
        PopKeepsLazyValid(inj, o.inj.store, o.res.value);
        var next := Rebind(o.inj, th.cell, o.res.value);
        assert r == Flush(DoLazyInjections(w, next).inj, [th] + DoLazyInjections(w, next).ran, DoLazyInjections(w, next).error);
        FlushKeepsSettings(w, next);
      } else {
        assert r == Flush(o.inj, [th], Some(o.res.error));
      }
    }
  }

  /** A flush keeps the lazy bookkeeping consistent. */
  lemma {:induction false} FlushKeepsLazyValid(w: World, inj: Injector)
    requires LazyValid(inj)
    ensures LazyValid(DoLazyInjections(w, inj).inj)
    decreases |inj.postponed|
  {
    var r := DoLazyInjections(w, inj);
    if |inj.postponed| > 0 {
      var last := |inj.postponed| - 1;
      var th := inj.postponed[last];
      var popped := inj.(postponed := inj.postponed[..last]);
      var o := RunInject(w, popped, th.target);
      if o.res.Ok? {
        PopKeepsLazyValid(inj, o.inj.store, o.res.value);
        var next := Rebind(o.inj, th.cell, o.res.value);
        var rest := DoLazyInjections(w, next);
        assert r == Flush(rest.inj, [th] + rest.ran, rest.error);
        FlushKeepsLazyValid(w, next);
      } else {
        assert r == Flush(o.inj, [th], Some(o.res.error));
        assert o.inj == popped.(store := o.inj.store);
      }
    }
  }

  /** A flush rebinds only the cells of the thunks it ran. */
  lemma {:induction false} FlushFrame(w: World, inj: Injector, c: nat)
    requires LazyValid(inj)
    requires c < |inj.cells|
    requires forall x :: x in DoLazyInjections(w, inj).ran ==> x.cell != c
    ensures |DoLazyInjections(w, inj).inj.cells| == |inj.cells|
    ensures DoLazyInjections(w, inj).inj.cells[c] == inj.cells[c]
    decreases |inj.postponed|
  {
    var r := DoLazyInjections(w, inj);
    if |inj.postponed| > 0 {
      var last := |inj.postponed| - 1;
      var th := inj.postponed[last];
      var popped := inj.(postponed := inj.postponed[..last]);
      var o := RunInject(w, popped, th.target);
      if o.res.Ok? {
        PopKeepsLazyValid(inj, o.inj.store, o.res.value);
        var next := Rebind(o.inj, th.cell, o.res.value);
        var rest := DoLazyInjections(w, next);
        assert r == Flush(rest.inj, [th] + rest.ran, rest.error);
        FlushFrame(w, next, c);
      } else {
        assert r == Flush(o.inj, [th], Some(o.res.error));
      }
    }
  }
}

=== FILE: injector_facts.dfy ===
/**
 What injection promises about the container it threads through: entries are
 only ever added (also when injection fails), a type already registered is
 returned as it is, and, for acyclic bindings, every dependency of a type is
 registered before the type itself, and every field receives what its
 binding says it should.
 */
module InjectorFacts {
  import opened Base
  import opened Reflect
  import opened Utils
  import opened Containers
  import opened Injector
  import OM = OrderedMaps

  /** The container only grows: earlier entries stay in place, earlier objects stay alive. */
  predicate Grows(s: Store, s': Store) {
    s.deps <= s'.deps && s.heap <= s'.heap
  }

  lemma GrowsTrans(s1: Store, s2: Store, s3: Store)
    requires Grows(s1, s2) && Grows(s2, s3)
    ensures Grows(s1, s3)
  {
  }

  /** A grown container answers the old lookups as before. */
  lemma GrowsKeepsGet(s: Store, s': Store, t: TypeId)
    requires Grows(s, s') && Get(s, t).Some?
    ensures Get(s', t) == Get(s, t)
  {
    OM.GetPrefix(s.deps, s'.deps, t);
  }

  /** Injection never removes, replaces or reorders an entry, and never
      forgets an object, whether it succeeds or raises: what was registered
      before an exception stays registered. */
  lemma {:induction false} InjectGrows(ctx: Ctx, fuel: nat, s: Store, t: TypeId)
    ensures Grows(s, Inject(ctx, fuel, s, t).store)
    decreases fuel, 2, 0
  {
    var n := Normalize(ctx.w, t);
    if Get(s, n).None? && fuel > 0 {
      InjectBodyGrows(ctx, fuel, s, n);
    }
  }

  lemma {:induction false} InjectBodyGrows(ctx: Ctx, fuel: nat, s: Store, n: TypeId)
    requires fuel > 0 && n !in OM.Keys(s.deps)
    ensures Grows(s, InjectBody(ctx, fuel, s, n).store)
    decreases fuel, 1, 0
  {
    if ctx.w.hints(n).Some? {
      var fields := ctx.w.hints(n).value;
      var r := InjectFields(ctx, fuel, s, fields, map[]);
      InjectFieldsGrows(ctx, fuel, s, fields, map[]);
      if r.res.Ok? && Set(ctx.w, r.store, n, r.res.value).Ok? {
        SetGrows(ctx.w, s, r.store, n, r.res.value);
      }
    }
  }

  /** Setting a key that `s` lacks, on a container grown from `s`, keeps the growth. */
  lemma SetGrows(w: World, s: Store, s1: Store, n: TypeId, kwargs: Kwargs)
    requires Grows(s, s1) && n !in OM.Keys(s.deps) && Set(w, s1, n, kwargs).Ok?
    ensures Grows(s, Set(w, s1, n, kwargs).value)
  {
    var st := Set(w, s1, n, kwargs).value;
    OM.SetKeepsPrefix(s.deps, s1.deps, n, Get(st, n).value);
    assert st.deps == OM.Set(s1.deps, n, Get(st, n).value);
  }

  lemma {:induction false} InjectFieldsGrows(ctx: Ctx, fuel: nat, s: Store, fields: seq<FieldDecl>, kwargs: Kwargs)
    requires fuel > 0
    ensures Grows(s, InjectFields(ctx, fuel, s, fields, kwargs).store)
    decreases fuel, 0, |fields|
  {
    if |fields| > 0 {
      var name := fields[0].name;
      match fields[0].kind
      case ClassRef(args) =>
        if |args| > 0 {
          var p := args[0];
          match Lookup(ctx.cfg, p)
          case None => InjectFieldsGrows(ctx, fuel, s, fields[1..], kwargs);
          case Some(impl) =>
            if MatchInterface(ctx.w, impl, p, ctx.strict) {
              InjectFieldsGrows(ctx, fuel, s, fields[1..], kwargs[name := ClassVal(impl)]);
            }
        }
      case Instance(a) =>
        var p := Normalize(ctx.w, a);
        match Lookup(ctx.cfg, p)
        case None => InjectFieldsGrows(ctx, fuel, s, fields[1..], kwargs);
        case Some(impl) =>
          if MatchInterface(ctx.w, impl, p, ctx.strict) {
            var d := Provide(ctx, fuel - 1, s, impl);
            ProvideGrows(ctx, fuel - 1, s, impl);
            if d.res.Ok? {
              var kw := kwargs[name := d.res.value];
              InjectFieldsGrows(ctx, fuel, d.store, fields[1..], kw);
              GrowsTrans(s, d.store, InjectFields(ctx, fuel, d.store, fields[1..], kw).store);
            }
          }
    }
  }

  lemma {:induction false} ProvideGrows(ctx: Ctx, fuel: nat, s: Store, impl: TypeId)
    ensures Grows(s, Provide(ctx, fuel, s, impl).store)
    decreases fuel, 3, 0
  {
    var d := Inject(ctx, fuel, s, impl);
    InjectGrows(ctx, fuel, s, impl);
    if d.res.Ok? && Call(ctx.w, d.store.heap, d.res.value).Ok? {
      GrowsTrans(s, d.store, Provide(ctx, fuel, s, impl).store);
    }
  }

  /** What `self.inject(provided_obj)()` returns is produced by the factory
      the container holds for the implementation afterwards. */
  lemma ProvideProduces(ctx: Ctx, fuel: nat, s: Store, impl: TypeId)
    ensures var d := Provide(ctx, fuel, s, impl); var n := Normalize(ctx.w, impl);
      d.res.Ok? ==> Get(d.store, n).Some? && Produces(d.store.heap, Get(d.store, n).value, d.res.value)
  {
    var d := Inject(ctx, fuel, s, impl);
    if d.res.Ok? && Call(ctx.w, d.store.heap, d.res.value).Ok? {
      InjectRegisters(ctx, fuel, s, impl);
      CallProduces(ctx.w, d.store.heap, d.res.value);
    }
  }

  /** The implementation bound to a field's provider, if any. A field whose
      provider is unbound, or bound to None, is skipped. */
  function Binding(ctx: Ctx, f: FieldDecl): Option<TypeId> {
    match f.kind
    case ClassRef(args) => if |args| == 0 then None else Lookup(ctx.cfg, args[0])
    case Instance(a) => Lookup(ctx.cfg, Normalize(ctx.w, a))
  }

  /** The names of the fields that receive a keyword argument. */
  function BoundNames(ctx: Ctx, fields: seq<FieldDecl>): set<string> {
    set i | 0 <= i < |fields| && Binding(ctx, fields[i]).Some? :: fields[i].name
  }

  predicate NotNamed(fields: seq<FieldDecl>, k: string) {
    forall j :: 0 <= j < |fields| ==> fields[j].name != k
  }

  /** `v` is what calling the factory `f` returns: its singleton, or an object
      the function produced from the partially applied arguments. */
  predicate Produces(heap: Heap, f: Factory, v: Value) {
    match f
    case Singleton(x) => v == x
    case Partial(fn, k) => v.Ref? && v.addr < |heap| && heap[v.addr] == ObjRecord(fn, k)
  }

  /** The keyword argument `kw` holds for field `f`, judged against the container `s`:
      a bound `Type[P]` field gets the implementation class itself; a bound
      instance field gets an object produced by the implementation's
      registered factory; either binding passed the interface check. */
  predicate Wired(ctx: Ctx, f: FieldDecl, kw: Kwargs, s: Store) {
    match f.kind
    case ClassRef(args) =>
      && |args| > 0
      && (match Lookup(ctx.cfg, args[0])
          case None => true
          case Some(impl) =>
            && MatchInterface(ctx.w, impl, args[0], ctx.strict)
            && f.name in kw && kw[f.name] == ClassVal(impl))
    case Instance(a) =>
      var p := Normalize(ctx.w, a);
      match Lookup(ctx.cfg, p)
      case None => true
      case Some(impl) =>
        && MatchInterface(ctx.w, impl, p, ctx.strict)
        && f.name in kw
        && Get(s, Normalize(ctx.w, impl)).Some?
        && Produces(s.heap, Get(s, Normalize(ctx.w, impl)).value, kw[f.name])
  }

  /** Wiring depends only on the field's own argument and survives growth. */
  lemma WiredFrame(ctx: Ctx, f: FieldDecl, kw: Kwargs, s: Store, kw': Kwargs, s': Store)
    requires Wired(ctx, f, kw, s) && Grows(s, s')
    requires f.name in kw ==> f.name in kw' && kw'[f.name] == kw[f.name]
    ensures Wired(ctx, f, kw', s')
  {
    if f.kind.Instance? {
      var p := Normalize(ctx.w, f.kind.annotation);
      if Lookup(ctx.cfg, p).Some? {
        GrowsKeepsGet(s, s', Normalize(ctx.w, Lookup(ctx.cfg, p).value));
      }
    }
  }

  lemma BoundNamesCons(ctx: Ctx, fields: seq<FieldDecl>)
    requires |fields| > 0
    ensures BoundNames(ctx, fields) ==
              (if Binding(ctx, fields[0]).Some? then {fields[0].name} else {}) + BoundNames(ctx, fields[1..])
  {
    var tail := fields[1..];
    forall x | x in BoundNames(ctx, tail) ensures x in BoundNames(ctx, fields) {
      var i :| 0 <= i < |tail| && Binding(ctx, tail[i]).Some? && tail[i].name == x;
      assert fields[i + 1] == tail[i];
    }
    forall x | x in BoundNames(ctx, fields) && x != fields[0].name ensures x in BoundNames(ctx, tail) {
      var i :| 0 <= i < |fields| && Binding(ctx, fields[i]).Some? && fields[i].name == x;
      assert tail[i - 1] == fields[i];
    }
    if Binding(ctx, fields[0]).Some? {
      assert fields[0].name in BoundNames(ctx, fields);
    } else {
      assert fields[0].name in BoundNames(ctx, fields) ==> fields[0].name in BoundNames(ctx, tail) by {
        if fields[0].name in BoundNames(ctx, fields) {
          var i :| 0 <= i < |fields| && Binding(ctx, fields[i]).Some? && fields[i].name == fields[0].name;
          assert i > 0 && tail[i - 1] == fields[i];
        }
      }
    }
  }

  /** Calling a factory yields what the factory produces. */
  lemma CallProduces(w: World, heap: Heap, f: Factory)
    requires Call(w, heap, f).Ok?
    ensures Produces(Call(w, heap, f).value.1, f, Call(w, heap, f).value.0)
  {
  }

  /** The fields loop, when it finishes: exactly the bound fields receive an
      argument, each the one its binding calls for, and arguments collected
      before are kept. */
  lemma {:induction false} InjectFieldsWires(ctx: Ctx, fuel: nat, s: Store, fields: seq<FieldDecl>, kwargs: Kwargs)
    requires fuel > 0 && DistinctNames(fields)
    ensures var r := InjectFields(ctx, fuel, s, fields, kwargs);
      r.res.Ok? ==>
        && r.res.value.Keys == kwargs.Keys + BoundNames(ctx, fields)
        && (forall k :: k in kwargs && NotNamed(fields, k) ==> r.res.value[k] == kwargs[k])
        && (forall i :: 0 <= i < |fields| ==> Wired(ctx, fields[i], r.res.value, r.store))
    decreases |fields|
  {
    var r := InjectFields(ctx, fuel, s, fields, kwargs);
    if |fields| > 0 && r.res.Ok? {
      var f := fields[0];
      var tail := fields[1..];
      var kw1, s1 := FirstFieldStep(ctx, fuel, s, fields, kwargs);
      assert DistinctNames(tail);
      InjectFieldsWires(ctx, fuel, s1, tail, kw1);
      InjectFieldsGrows(ctx, fuel, s1, tail, kw1);
      assert NotNamed(tail, f.name) by {
        forall j | 0 <= j < |tail| ensures tail[j].name != f.name {
          assert tail[j] == fields[j + 1];
        }
      }
      WiredFrame(ctx, f, kw1, s1, r.res.value, r.store);
      forall i | 0 <= i < |fields| ensures Wired(ctx, fields[i], r.res.value, r.store) {
        if i > 0 {
          assert fields[i] == tail[i - 1];
        }
      }
      forall k | k in kwargs && NotNamed(fields, k) ensures r.res.value[k] == kwargs[k] {
        assert f.name != k;
        assert NotNamed(tail, k) by {
          forall j | 0 <= j < |tail| ensures tail[j].name != k {
            assert tail[j] == fields[j + 1];
          }
        }
      }
      BoundNamesCons(ctx, fields);
    }
  }

  /** One turn of the fields loop that does not raise: the first field's
      argument is collected (or skipped when unbound) and wired, and the loop
      carries on with the rest. */
  lemma FirstFieldStep(ctx: Ctx, fuel: nat, s: Store, fields: seq<FieldDecl>, kwargs: Kwargs)
    returns (kw1: Kwargs, s1: Store)
    requires fuel > 0 && |fields| > 0
    requires InjectFields(ctx, fuel, s, fields, kwargs).res.Ok?
    ensures InjectFields(ctx, fuel, s, fields, kwargs) == InjectFields(ctx, fuel, s1, fields[1..], kw1)
    ensures Wired(ctx, fields[0], kw1, s1)
    ensures kw1.Keys == kwargs.Keys + (if Binding(ctx, fields[0]).Some? then {fields[0].name} else {})
    ensures forall k :: k in kwargs && k != fields[0].name ==> kw1[k] == kwargs[k]
    // a class reference is passed as itself and an unbound field is skipped:
    // neither injects nor constructs anything
    ensures fields[0].kind.ClassRef? || Binding(ctx, fields[0]).None? ==> s1 == s
  {
    var f := fields[0];
    match f.kind {
      case ClassRef(args) =>
        assert |args| > 0;
        match Lookup(ctx.cfg, args[0]) {
          case None => kw1, s1 := kwargs, s;
          case Some(impl) => kw1, s1 := kwargs[f.name := ClassVal(impl)], s;
        }
      case Instance(a) =>
        var p := Normalize(ctx.w, a);
        match Lookup(ctx.cfg, p) {
          case None => kw1, s1 := kwargs, s;
          case Some(impl) =>
            kw1, s1 := InstanceFieldStep(ctx, fuel, s, fields, kwargs, p, impl);
        }
    }
  }

  /** The instance-field turn: the implementation is injected one level
      deeper and its factory called for the argument. */
  lemma InstanceFieldStep(ctx: Ctx, fuel: nat, s: Store, fields: seq<FieldDecl>, kwargs: Kwargs, p: TypeId, impl: TypeId)
    returns (kw1: Kwargs, s1: Store)
    requires fuel > 0 && |fields| > 0 && fields[0].kind.Instance?
    requires p == Normalize(ctx.w, fields[0].kind.annotation) && Lookup(ctx.cfg, p) == Some(impl)
    requires InjectFields(ctx, fuel, s, fields, kwargs).res.Ok?
    ensures InjectFields(ctx, fuel, s, fields, kwargs) == InjectFields(ctx, fuel, s1, fields[1..], kw1)
    ensures Wired(ctx, fields[0], kw1, s1)
    ensures kw1 == kwargs[fields[0].name := kw1[fields[0].name]]
  {
    var d := Provide(ctx, fuel - 1, s, impl);
    assert MatchInterface(ctx.w, impl, p, ctx.strict);
    assert d.res.Ok?;
    ProvideProduces(ctx, fuel - 1, s, impl);
    kw1, s1 := kwargs[fields[0].name := d.res.value], d.store;
  }

  /** The type an instance field makes injection recurse into, if any. */
  function DepOf(ctx: Ctx, f: FieldDecl): Option<TypeId> {
    match f.kind
    case ClassRef(_) => None
    case Instance(a) =>
      match Lookup(ctx.cfg, Normalize(ctx.w, a))
      case None => None
      case Some(impl) => Some(Normalize(ctx.w, impl))
  }

  /** Acyclic bindings, witnessed by a rank that every dependency lowers. */
  ghost predicate Ranked(ctx: Ctx, rank: TypeId -> nat) {
    forall n, i ::
      (ctx.w.hints(n).Some? && 0 <= i < |ctx.w.hints(n).value| && DepOf(ctx, ctx.w.hints(n).value[i]).Some?) ==>
        rank(DepOf(ctx, ctx.w.hints(n).value[i]).value) < rank(n)
  }

  predicate DepsBelow(ctx: Ctx, rank: TypeId -> nat, fields: seq<FieldDecl>, bound: nat) {
    forall i :: 0 <= i < |fields| && DepOf(ctx, fields[i]).Some? ==> rank(DepOf(ctx, fields[i]).value) < bound
  }

  /** Every key added between `s` and `s'` ranks below `bound`. */
  predicate NewKeysBelow(s: Store, s': Store, rank: TypeId -> nat, bound: nat) {
    forall i :: |s.deps| <= i < |s'.deps| ==> rank(OM.Keys(s'.deps)[i]) < bound
  }

  /** A looser bound, and a store with the same entries, keep the new keys below it. */
  lemma NewKeysMono(s: Store, s1: Store, s2: Store, rank: TypeId -> nat, b1: nat, b2: nat)
    requires NewKeysBelow(s, s1, rank, b1) && b1 <= b2 && s2.deps == s1.deps
    ensures NewKeysBelow(s, s2, rank, b2)
  {
  }

  lemma NewKeysTrans(s1: Store, s2: Store, s3: Store, rank: TypeId -> nat, bound: nat)
    requires Grows(s1, s2) && Grows(s2, s3)
    requires NewKeysBelow(s1, s2, rank, bound) && NewKeysBelow(s2, s3, rank, bound)
    ensures NewKeysBelow(s1, s3, rank, bound)
  {
    OM.KeysPrefix(s2.deps, s3.deps);
    forall i | |s1.deps| <= i < |s2.deps| ensures OM.Keys(s3.deps)[i] == OM.Keys(s2.deps)[i] {
    }
  }

  /** With acyclic bindings, providing an instance of `impl` registers nothing that ranks above it. */
  lemma {:induction false} ProvideRanked(ctx: Ctx, rank: TypeId -> nat, fuel: nat, s: Store, impl: TypeId)
    requires Ranked(ctx, rank)
    ensures NewKeysBelow(s, Provide(ctx, fuel, s, impl).store, rank, rank(Normalize(ctx.w, impl)) + 1)
    decreases fuel, 3, 0, 0
  {
    var d := Inject(ctx, fuel, s, impl);
    InjectRanked(ctx, rank, fuel, s, impl);
    NewKeysMono(s, d.store, Provide(ctx, fuel, s, impl).store, rank, rank(Normalize(ctx.w, impl)) + 1, rank(Normalize(ctx.w, impl)) + 1);
  }

  /** With acyclic bindings, injecting `t` registers nothing that ranks above it. */
  lemma {:induction false} InjectRanked(ctx: Ctx, rank: TypeId -> nat, fuel: nat, s: Store, t: TypeId)
    requires Ranked(ctx, rank)
    ensures NewKeysBelow(s, Inject(ctx, fuel, s, t).store, rank, rank(Normalize(ctx.w, t)) + 1)
    decreases fuel, 2, 0, 0
  {
    var n := Normalize(ctx.w, t);
    if Get(s, n).None? && fuel > 0 {
      InjectBodyRanked(ctx, rank, fuel, s, n);
    }
  }

  lemma {:induction false} InjectBodyRanked(ctx: Ctx, rank: TypeId -> nat, fuel: nat, s: Store, n: TypeId)
    requires Ranked(ctx, rank) && fuel > 0
    ensures NewKeysBelow(s, InjectBody(ctx, fuel, s, n).store, rank, rank(n) + 1)
    decreases fuel, 1, 0, 0
  {
    if ctx.w.hints(n).Some? {
      var fields := ctx.w.hints(n).value;
      var r := InjectFields(ctx, fuel, s, fields, map[]);
      assert DepsBelow(ctx, rank, fields, rank(n));
      InjectFieldsRanked(ctx, rank, fuel, s, fields, map[], rank(n));
      InjectFieldsGrows(ctx, fuel, s, fields, map[]);
      OM.KeysPrefix(s.deps, r.store.deps);
      if r.res.Ok? && Set(ctx.w, r.store, n, r.res.value).Ok? {
        var s2 := Set(ctx.w, r.store, n, r.res.value).value;
        assert InjectBody(ctx, fuel, s, n).store == s2;
        SetKeyBelow(s, r.store, s2, n, rank, rank(n) + 1);
      }
    }
  }

  /** Assigning `n` after the fields adds at most `n` itself as a new key. */
  lemma SetKeyBelow(s: Store, s1: Store, s2: Store, n: TypeId, rank: TypeId -> nat, bound: nat)
    requires s.deps <= s1.deps && NewKeysBelow(s, s1, rank, bound) && rank(n) < bound
    requires OM.Keys(s2.deps) == (if n in OM.Keys(s1.deps) then OM.Keys(s1.deps) else OM.Keys(s1.deps) + [n])
    ensures NewKeysBelow(s, s2, rank, bound)
  {
    forall i | |s.deps| <= i < |s2.deps| ensures rank(OM.Keys(s2.deps)[i]) < bound {
      if i < |s1.deps| {
        assert OM.Keys(s2.deps)[i] == OM.Keys(s1.deps)[i];
      }
    }
  }

  lemma {:induction false} InjectFieldsRanked(ctx: Ctx, rank: TypeId -> nat, fuel: nat, s: Store,
                                              fields: seq<FieldDecl>, kwargs: Kwargs, bound: nat)
    requires Ranked(ctx, rank) && fuel > 0
    requires DepsBelow(ctx, rank, fields, bound)
    ensures NewKeysBelow(s, InjectFields(ctx, fuel, s, fields, kwargs).store, rank, bound)
    decreases fuel, 0, |fields|, 1
  {
    if |fields| > 0 {
      var name := fields[0].name;
      assert DepsBelow(ctx, rank, fields[1..], bound) by {
        forall i | 0 <= i < |fields[1..]| ensures fields[1..][i] == fields[i + 1] {}
      }
      match fields[0].kind {
        case ClassRef(args) =>
          if |args| > 0 {
            var p := args[0];
            match Lookup(ctx.cfg, p) {
              case None => InjectFieldsRanked(ctx, rank, fuel, s, fields[1..], kwargs, bound);
              case Some(impl) =>
                if MatchInterface(ctx.w, impl, p, ctx.strict) {
                  InjectFieldsRanked(ctx, rank, fuel, s, fields[1..], kwargs[name := ClassVal(impl)], bound);
                }
            }
          }
        case Instance(a) =>
          var p := Normalize(ctx.w, a);
          match Lookup(ctx.cfg, p) {
            case None => InjectFieldsRanked(ctx, rank, fuel, s, fields[1..], kwargs, bound);
            case Some(impl) =>
              if MatchInterface(ctx.w, impl, p, ctx.strict) {
                assert DepOf(ctx, fields[0]) == Some(Normalize(ctx.w, impl));
                BoundInstanceRanked(ctx, rank, fuel, s, fields, kwargs, bound, p, impl);
              }
          }
      }
    }
  }

  /** The loop turn for a bound instance field that passed its check. */
  lemma {:induction false} BoundInstanceRanked(ctx: Ctx, rank: TypeId -> nat, fuel: nat, s: Store,
                                               fields: seq<FieldDecl>, kwargs: Kwargs, bound: nat, p: TypeId, impl: TypeId)
    requires Ranked(ctx, rank) && fuel > 0 && |fields| > 0
    requires DepsBelow(ctx, rank, fields[1..], bound) && rank(Normalize(ctx.w, impl)) < bound
    requires fields[0].kind.Instance? && p == Normalize(ctx.w, fields[0].kind.annotation)
    requires Lookup(ctx.cfg, p) == Some(impl) && MatchInterface(ctx.w, impl, p, ctx.strict)
    ensures NewKeysBelow(s, InjectFields(ctx, fuel, s, fields, kwargs).store, rank, bound)
    decreases fuel, 0, |fields|, 0
  {
    var d := Provide(ctx, fuel - 1, s, impl);
    assert NewKeysBelow(s, d.store, rank, bound) by {
      ProvideRanked(ctx, rank, fuel - 1, s, impl);
      NewKeysMono(s, d.store, d.store, rank, rank(Normalize(ctx.w, impl)) + 1, bound);
    }
    if d.res.Ok? {
      var kw := kwargs[fields[0].name := d.res.value];
      assert NewKeysBelow(s, InjectFields(ctx, fuel, d.store, fields[1..], kw).store, rank, bound) by {
        ProvideGrows(ctx, fuel - 1, s, impl);
        RestRanked(ctx, rank, fuel, s, d.store, fields[1..], kw, bound);
      }
      assert InjectFields(ctx, fuel, s, fields, kwargs) == InjectFields(ctx, fuel, d.store, fields[1..], kw) by {
        BoundInstanceTurn(ctx, fuel, s, fields, kwargs, p, impl);
      }
    } else {
      assert InjectFields(ctx, fuel, s, fields, kwargs).store == d.store by {
        BoundInstanceTurn(ctx, fuel, s, fields, kwargs, p, impl);
      }
    }
  }

  /** The loop turn for a bound instance field that passed its check: it
      raises with what providing the argument raised, or carries on with the
      argument collected. */
  lemma BoundInstanceTurn(ctx: Ctx, fuel: nat, s: Store, fields: seq<FieldDecl>, kwargs: Kwargs, p: TypeId, impl: TypeId)
    requires fuel > 0 && |fields| > 0
    requires fields[0].kind.Instance? && p == Normalize(ctx.w, fields[0].kind.annotation)
    requires Lookup(ctx.cfg, p) == Some(impl) && MatchInterface(ctx.w, impl, p, ctx.strict)
    ensures var d := Provide(ctx, fuel - 1, s, impl); var r := InjectFields(ctx, fuel, s, fields, kwargs);
      && (d.res.Err? ==> r == Step(Err(d.res.error), d.store))
      && (d.res.Ok? ==> r == InjectFields(ctx, fuel, d.store, fields[1..], kwargs[fields[0].name := d.res.value]))
  {
  }

  /** The rest of the loop, run from a store that already grew within the bound. */
  lemma {:induction false} RestRanked(ctx: Ctx, rank: TypeId -> nat, fuel: nat, s: Store, s2: Store,
                                      fields: seq<FieldDecl>, kwargs: Kwargs, bound: nat)
    requires Ranked(ctx, rank) && fuel > 0
    requires Grows(s, s2) && NewKeysBelow(s, s2, rank, bound)
    requires DepsBelow(ctx, rank, fields, bound)
    ensures NewKeysBelow(s, InjectFields(ctx, fuel, s2, fields, kwargs).store, rank, bound)
    decreases fuel, 0, |fields|, 2
  {
    var r := InjectFields(ctx, fuel, s2, fields, kwargs);
    InjectFieldsRanked(ctx, rank, fuel, s2, fields, kwargs, bound);
    InjectFieldsGrows(ctx, fuel, s2, fields, kwargs);
    NewKeysTrans(s, s2, r.store, rank, bound);
  }

  /** The keyword arguments a factory was built from. */
  function ArgsOf(heap: Heap, f: Factory): Kwargs {
    match f
    case Partial(_, kwargs) => kwargs
    case Singleton(v) => if v.Ref? && v.addr < |heap| then heap[v.addr].kwargs else map[]
  }

  /** With acyclic bindings, a successful injection of an unregistered type
      resolves its fields and then appends the type itself, last. */
  lemma InjectAppends(ctx: Ctx, rank: TypeId -> nat, fuel: nat, s: Store, t: TypeId)
    requires Ranked(ctx, rank)
    requires Get(s, Normalize(ctx.w, t)).None?
    ensures var r := Inject(ctx, fuel, s, t); var n := Normalize(ctx.w, t);
      r.res.Ok? ==>
        && fuel > 0 && ctx.w.hints(n).Some?
        && var r1 := InjectFields(ctx, fuel, s, ctx.w.hints(n).value, map[]);
        && r1.res.Ok?
        && Grows(s, r1.store)
        && r.store.deps == r1.store.deps + [(n, r.res.value)]
        && (IsFunction(ctx.w, n) ==>
              r.store.heap == r1.store.heap && r.res.value == Partial(n, r1.res.value))
        && (!IsFunction(ctx.w, n) ==>
              && r.store.heap == r1.store.heap + [ObjRecord(n, r1.res.value)]
              && r.res.value == Singleton(Ref(|r1.store.heap|)))
  {
    var r := Inject(ctx, fuel, s, t);
    var n := Normalize(ctx.w, t);
    if r.res.Ok? {
      assert fuel > 0;
      assert r == InjectBody(ctx, fuel, s, n);
      assert ctx.w.hints(n).Some?;
      var fs := ctx.w.hints(n).value;
      var r1 := InjectFields(ctx, fuel, s, fs, map[]);
      assert r1.res.Ok?;
      var st := Set(ctx.w, r1.store, n, r1.res.value);
      assert st.Ok? && r.store == st.value && r.res.value == Get(r.store, n).value;
      InjectFieldsGrows(ctx, fuel, s, fs, map[]);
      assert DepsBelow(ctx, rank, fs, rank(n));
      InjectFieldsRanked(ctx, rank, fuel, s, fs, map[], rank(n));
      OM.KeysPrefix(s.deps, r1.store.deps);
      forall i | 0 <= i < |r1.store.deps| ensures OM.Keys(r1.store.deps)[i] != n {
        if i < |s.deps| {
          assert OM.Keys(r1.store.deps)[i] == OM.Keys(s.deps)[i];
        }
      }
      OM.SetAppendsNewKey(r1.store.deps, n, r.res.value);
    }
  }

  lemma UnboundNotPassed(ctx: Ctx, fields: seq<FieldDecl>)
    requires DistinctNames(fields)
    ensures forall i :: 0 <= i < |fields| && Binding(ctx, fields[i]).None? ==> fields[i].name !in BoundNames(ctx, fields)
  {
    forall i | 0 <= i < |fields| && Binding(ctx, fields[i]).None? ensures fields[i].name !in BoundNames(ctx, fields) {
      forall j | 0 <= j < |fields| && Binding(ctx, fields[j]).Some? ensures fields[j].name != fields[i].name {
        assert i != j;
      }
    }
  }

  /** Registration is post-order: with acyclic bindings, a successful
      injection of an unregistered type appends it last, after every type its
      instance fields depend on, and keeps every earlier entry in place. */
  lemma InjectPostOrder(ctx: Ctx, rank: TypeId -> nat, fuel: nat, s: Store, t: TypeId)
    requires Ranked(ctx, rank) && HintsAreDicts(ctx.w)
    requires Get(s, Normalize(ctx.w, t)).None?
    ensures var r := Inject(ctx, fuel, s, t); var n := Normalize(ctx.w, t);
      r.res.Ok? ==>
        && ctx.w.hints(n).Some?
        && |r.store.deps| > |s.deps|
        && var last := |r.store.deps| - 1;
        && r.store.deps[last] == (n, r.res.value)
        && s.deps <= r.store.deps[..last]
        && var fs := ctx.w.hints(n).value;
        && (forall i :: 0 <= i < |fs| && DepOf(ctx, fs[i]).Some? ==>
              DepOf(ctx, fs[i]).value in OM.Keys(r.store.deps[..last]))
  {
    var r := Inject(ctx, fuel, s, t);
    var n := Normalize(ctx.w, t);
    InjectAppends(ctx, rank, fuel, s, t);
    if r.res.Ok? {
      var fs := ctx.w.hints(n).value;
      var r1 := InjectFields(ctx, fuel, s, fs, map[]);
      assert DistinctNames(fs);
      InjectFieldsWires(ctx, fuel, s, fs, map[]);
      assert r.store.deps[..|r.store.deps| - 1] == r1.store.deps;
      forall i | 0 <= i < |fs| && DepOf(ctx, fs[i]).Some? ensures DepOf(ctx, fs[i]).value in OM.Keys(r1.store.deps) {
        assert Wired(ctx, fs[i], r1.res.value, r1.store);
      }
    }
  }

  /** Wiring is complete: with acyclic bindings, the object built by a
      successful injection (or the partial application stored for a function)
      receives exactly the bound fields, each the value its binding calls for,
      and no unbound field. */
  lemma InjectWires(ctx: Ctx, rank: TypeId -> nat, fuel: nat, s: Store, t: TypeId)
    requires Ranked(ctx, rank) && HintsAreDicts(ctx.w)
    requires Get(s, Normalize(ctx.w, t)).None?
    ensures var r := Inject(ctx, fuel, s, t); var n := Normalize(ctx.w, t);
      r.res.Ok? ==> ctx.w.hints(n).Some? && BuiltAsWired(ctx, ctx.w.hints(n).value, n, r.store, r.res.value)
  {
    var r := Inject(ctx, fuel, s, t);
    var n := Normalize(ctx.w, t);
    InjectAppends(ctx, rank, fuel, s, t);
    if r.res.Ok? {
      var fs := ctx.w.hints(n).value;
      var r1 := InjectFields(ctx, fuel, s, fs, map[]);
      assert DistinctNames(fs);
      InjectFieldsWires(ctx, fuel, s, fs, map[]);
      ObjectWired(ctx, fs, r1.res.value, r1.store, n, r.store, r.res.value);
    }
  }

  /** The factory `f` registered for `n`, whose declared fields are `fs`, was
      built from exactly the bound fields, each wired as its binding calls
      for, and from no unbound field: as a partial application when `n` is a
      function, and otherwise as a singleton holding the newest object. */
  predicate BuiltAsWired(ctx: Ctx, fs: seq<FieldDecl>, n: TypeId, s: Store, f: Factory) {
    var kw := ArgsOf(s.heap, f);
    && kw.Keys == BoundNames(ctx, fs)
    && (forall i :: 0 <= i < |fs| ==> Wired(ctx, fs[i], kw, s))
    && (forall i :: 0 <= i < |fs| && Binding(ctx, fs[i]).None? ==> fs[i].name !in kw)
    && (IsFunction(ctx.w, n) ==> f == Partial(n, kw))
    && (!IsFunction(ctx.w, n) ==>
          && |s.heap| > 0
          && f == Singleton(Ref(|s.heap| - 1))
          && s.heap[|s.heap| - 1] == ObjRecord(n, kw))
  }

  /** The last step of `_inject`: `deps.set` appends the type with the
      collected arguments, and the wiring carries over to the new container. */
  lemma ObjectWired(ctx: Ctx, fs: seq<FieldDecl>, kw: Kwargs, s1: Store, n: TypeId, s2: Store, f: Factory)
    requires DistinctNames(fs)
    requires kw.Keys == BoundNames(ctx, fs)
    requires forall i :: 0 <= i < |fs| ==> Wired(ctx, fs[i], kw, s1)
    requires s2.deps == s1.deps + [(n, f)]
    requires IsFunction(ctx.w, n) ==> s2.heap == s1.heap && f == Partial(n, kw)
    requires !IsFunction(ctx.w, n) ==>
               s2.heap == s1.heap + [ObjRecord(n, kw)] && f == Singleton(Ref(|s1.heap|))
    ensures ArgsOf(s2.heap, f) == kw
    ensures BuiltAsWired(ctx, fs, n, s2, f)
  {
    if !IsFunction(ctx.w, n) {
      assert s2.heap[|s1.heap|] == ObjRecord(n, kw);
    }
    assert Grows(s1, s2);
    AllWiredFrame(ctx, fs, kw, s1, s2);
    UnboundNotPassed(ctx, fs);
  }

  lemma AllWiredFrame(ctx: Ctx, fs: seq<FieldDecl>, kw: Kwargs, s1: Store, s2: Store)
    requires Grows(s1, s2)
    requires forall i :: 0 <= i < |fs| ==> Wired(ctx, fs[i], kw, s1)
    ensures forall i :: 0 <= i < |fs| ==> Wired(ctx, fs[i], kw, s2)
  {
    forall i | 0 <= i < |fs| ensures Wired(ctx, fs[i], kw, s2) {
      WiredFrame(ctx, fs[i], kw, s1, kw, s2);
    }
  }

  /** A type already in the container is returned as it is, whatever the
      bindings, the validation mode or the remaining depth, and without
      reflecting on it again: any world that normalises types the same way,
      whatever its type hints, constructors or subtype relation, gives the
      same answer. Injection is idempotent. */
  lemma InjectIdempotent(ctx: Ctx, fuel: nat, s: Store, t: TypeId, w': World, cfg': Config, strict': bool, fuel': nat)
    requires Inject(ctx, fuel, s, t).res.Ok?
    requires w'.origin == ctx.w.origin
    ensures var r := Inject(ctx, fuel, s, t);
      Inject(Ctx(w', cfg', strict'), fuel', r.store, t) == Step(r.res, r.store)
  {
    InjectRegisters(ctx, fuel, s, t);
    assert Normalize(w', t) == Normalize(ctx.w, t);
  }

  /** The first declared field of `a` is an instance field whose interface is
      bound to `b`, and the binding passes the interface check. */
  predicate FirstDependsOn(ctx: Ctx, a: TypeId, b: TypeId) {
    var n := Normalize(ctx.w, a);
    && ctx.w.hints(n).Some? && |ctx.w.hints(n).value| > 0
    && ctx.w.hints(n).value[0].kind.Instance?
    && var p := Normalize(ctx.w, ctx.w.hints(n).value[0].kind.annotation);
       Lookup(ctx.cfg, p) == Some(b) && MatchInterface(ctx.w, b, p, ctx.strict)
  }

  /** A cycle of bindings, `a` needing `b` first and `b` needing `a` first
      (`a == b` is a type that needs itself), never registers anything:
      `inject` recurses until the depth runs out, whatever the depth, and the
      RecursionError propagates with the container as it was. */
  lemma {:induction false} CycleNeverRegisters(ctx: Ctx, fuel: nat, s: Store, a: TypeId, b: TypeId)
    requires FirstDependsOn(ctx, a, b) && FirstDependsOn(ctx, b, a)
    requires Get(s, Normalize(ctx.w, a)).None? && Get(s, Normalize(ctx.w, b)).None?
    ensures Inject(ctx, fuel, s, a) == Step(Err(RecursionLimit), s)
    decreases fuel
  {
    if fuel > 0 {
      CycleNeverRegisters(ctx, fuel - 1, s, b, a);
      var n := Normalize(ctx.w, a);
      var fs := ctx.w.hints(n).value;
      assert Provide(ctx, fuel - 1, s, b) == Step(Err(RecursionLimit), s);
      assert InjectFields(ctx, fuel, s, fs, map[]) == Step(Err(RecursionLimit), s);
    }
  }

  /** `get_type_hints` raising TypeError surfaces as an InjectionError naming
      the type, and nothing is registered. */
  lemma InjectReflectionFails(ctx: Ctx, fuel: nat, s: Store, t: TypeId)
    requires Get(s, Normalize(ctx.w, t)).None? && fuel > 0
    requires ctx.w.hints(Normalize(ctx.w, t)).None?
    ensures Inject(ctx, fuel, s, t) == Step(Err(InjectionError(FailedToInject(Normalize(ctx.w, t)))), s)
  {
  }

  /** Once the fields are resolved: a function target is stored partially
      applied and its bad argument list surfaces only when the factory is
      called, as a plain TypeError; a class is constructed at once and its
      TypeError becomes an InjectionError naming it, with the dependencies
      registered so far kept. */
  lemma InjectConstructs(ctx: Ctx, fuel: nat, s: Store, t: TypeId)
    requires Get(s, Normalize(ctx.w, t)).None? && fuel > 0
    requires ctx.w.hints(Normalize(ctx.w, t)).Some?
    requires InjectFields(ctx, fuel, s, ctx.w.hints(Normalize(ctx.w, t)).value, map[]).res.Ok?
    ensures var n := Normalize(ctx.w, t);
      var r1 := InjectFields(ctx, fuel, s, ctx.w.hints(n).value, map[]);
      var kw := r1.res.value;
      var r := Inject(ctx, fuel, s, t);
      && (IsFunction(ctx.w, n) ==>
            && r.res == Ok(Partial(n, kw))
            && r.store.heap == r1.store.heap
            && forall heap :: Call(ctx.w, heap, Partial(n, kw)) == Err(TypeError) <==> !ctx.w.accepts(n, kw))
      && (!IsFunction(ctx.w, n) ==>
            && (r.res.Ok? <==> ctx.w.accepts(n, kw))
            && (!ctx.w.accepts(n, kw) ==> r == Step(Err(InjectionError(FailedToInject(n))), r1.store)))
  {
  }

  /** The interface-check failure a field's binding raises, if any. */
  function Rejection(ctx: Ctx, f: FieldDecl): Option<InjectionCause> {
    match f.kind
    case ClassRef(args) =>
      if |args| == 0 then None
      else
        (match Lookup(ctx.cfg, args[0])
         case None => None
         case Some(impl) =>
           if MatchInterface(ctx.w, impl, args[0], ctx.strict) then None else Some(NotRealized(impl, args[0])))
    case Instance(a) =>
      var p := Normalize(ctx.w, a);
      match Lookup(ctx.cfg, p)
      case None => None
      case Some(impl) =>
        if MatchInterface(ctx.w, impl, p, ctx.strict) then None else Some(NotRealized(impl, p))
  }

  /** A binding that fails the interface check raises InjectionError at once,
      before anything is injected for that field. */
  lemma RejectedFieldRaises(ctx: Ctx, fuel: nat, s: Store, fields: seq<FieldDecl>, kwargs: Kwargs)
    requires fuel > 0 && |fields| > 0 && Rejection(ctx, fields[0]).Some?
    ensures InjectFields(ctx, fuel, s, fields, kwargs) == Step(Err(InjectionError(Rejection(ctx, fields[0]).value)), s)
  {
  }

  /** A successful injection passed every interface check on the way: a
      single rejected binding anywhere among the fields makes it fail. */
  lemma InjectPassesChecks(ctx: Ctx, fuel: nat, s: Store, t: TypeId)
    requires HintsAreDicts(ctx.w)
    requires Get(s, Normalize(ctx.w, t)).None?
    ensures var r := Inject(ctx, fuel, s, t); var n := Normalize(ctx.w, t);
      r.res.Ok? ==>
        && ctx.w.hints(n).Some?
        && forall i :: 0 <= i < |ctx.w.hints(n).value| ==> Rejection(ctx, ctx.w.hints(n).value[i]).None?
  {
    var r := Inject(ctx, fuel, s, t);
    var n := Normalize(ctx.w, t);
    if r.res.Ok? {
      assert fuel > 0;
      assert r == InjectBody(ctx, fuel, s, n);
      var fs := ctx.w.hints(n).value;
      var r1 := InjectFields(ctx, fuel, s, fs, map[]);
      assert r1.res.Ok?;
      assert DistinctNames(fs);
      InjectFieldsWires(ctx, fuel, s, fs, map[]);
      forall i | 0 <= i < |fs| ensures Rejection(ctx, fs[i]).None? {
        assert Wired(ctx, fs[i], r1.res.value, r1.store);
      }
    }
  }

  /** A flush only adds to the container. */
  lemma {:induction false} FlushGrows(w: World, inj: Injector)
    requires LazyValid(inj)
    ensures Grows(inj.store, DoLazyInjections(w, inj).inj.store)
    decreases |inj.postponed|
  {
    var r := DoLazyInjections(w, inj);
    if |inj.postponed| > 0 {
      var last := |inj.postponed| - 1;
      var th := inj.postponed[last];
      var popped := inj.(postponed := inj.postponed[..last]);
      var o := RunInject(w, popped, th.target);
      InjectGrows(CtxOf(w, popped), popped.limit, popped.store, th.target);
      if o.res.Ok? {
        PopKeepsLazyValid(inj, o.inj.store, o.res.value);
        var next := Rebind(o.inj, th.cell, o.res.value);
        var rest := DoLazyInjections(w, next);
        assert r == Flush(rest.inj, [th] + rest.ran, rest.error);
        FlushGrows(w, next);
        GrowsTrans(inj.store, next.store, rest.inj.store);
      } else {
        assert r == Flush(o.inj, [th], Some(o.res.error));
      }
    }
  }

  /** The thunks of a flush that ran to completion. */
  function Completed(r: Flush): seq<Thunk> {
    if r.error.None? then r.ran else if |r.ran| == 0 then [] else r.ran[..|r.ran| - 1]
  }

  /** The wrapper of `th` now calls the factory the container holds for its target. */
  predicate CallsFactory(w: World, inj: Injector, th: Thunk) {
    && th.cell < |inj.cells|
    && Get(inj.store, Normalize(w, th.target)).Some?
    && inj.cells[th.cell] == Injected(Get(inj.store, Normalize(w, th.target)).value)
  }

  /** After a flush every wrapper whose injection ran (and did not raise)
      calls the container's factory for its target instead of the raw target. */
  lemma {:induction false} FlushRebinds(w: World, inj: Injector)
    requires LazyValid(inj)
    ensures var r := DoLazyInjections(w, inj);
      forall th :: th in Completed(r) ==> CallsFactory(w, r.inj, th)
    decreases |inj.postponed|
  {
    var r := DoLazyInjections(w, inj);
    if |inj.postponed| > 0 {
      var th, o, next := FlushUnfolds(w, inj);
      if o.res.Ok? {
        var rest := DoLazyInjections(w, next);
        assert CallsFactory(w, next, th);
        FlushRebinds(w, next);
        FlushEmptiesQueue(w, next);
        FlushGrows(w, next);
        RanOtherCells(w, inj, next);
        FlushFrame(w, next, th.cell);
        RebindSurvives(w, th, next, rest);
      } else {
        assert Completed(r) == [];
      }
    }
  }

  /** The injections a flush runs after the last thunk's rebind other
      wrappers than that thunk's. */
  lemma RanOtherCells(w: World, inj: Injector, next: Injector)
    requires LazyValid(inj) && |inj.postponed| > 0
    requires LazyValid(next) && next.postponed == inj.postponed[..|inj.postponed| - 1]
    ensures forall x :: x in DoLazyInjections(w, next).ran ==> x.cell != inj.postponed[|inj.postponed| - 1].cell
  {
    var rest := DoLazyInjections(w, next);
    FlushIsLifo(w, next);
    ReverseMembers(rest.ran);
    LastCellIsOwn(inj);
    forall x | x in rest.ran ensures x.cell != inj.postponed[|inj.postponed| - 1].cell {
      assert x in next.postponed;
    }
  }

  lemma LastCellIsOwn(inj: Injector)
    requires LazyValid(inj) && |inj.postponed| > 0
    ensures forall y :: y in inj.postponed[..|inj.postponed| - 1] ==>
              y.cell != inj.postponed[|inj.postponed| - 1].cell
  {
    var last := |inj.postponed| - 1;
    forall y | y in inj.postponed[..last] ensures y.cell != inj.postponed[last].cell {
      var i :| 0 <= i < last && inj.postponed[..last][i] == y;
      assert inj.postponed[i] == y;
    }
  }

  /** One step of the flush: the cell just rebound stays rebound through the rest. */
  lemma RebindSurvives(w: World, th: Thunk, next: Injector, rest: Flush)
    requires CallsFactory(w, next, th)
    requires Grows(next.store, rest.inj.store)
    requires |rest.inj.cells| == |next.cells| && rest.inj.cells[th.cell] == next.cells[th.cell]
    requires rest.error.Some? ==> |rest.ran| > 0
    requires forall y :: y in Completed(rest) ==> CallsFactory(w, rest.inj, y)
    ensures forall y :: y in Completed(Flush(rest.inj, [th] + rest.ran, rest.error)) ==> CallsFactory(w, rest.inj, y)
  {
    var c := Completed(Flush(rest.inj, [th] + rest.ran, rest.error));
    if rest.error.Some? {
      assert ([th] + rest.ran)[..|rest.ran|] == [th] + rest.ran[..|rest.ran| - 1];
    }
    assert c == [th] + Completed(rest);
    GrowsKeepsGet(next.store, rest.inj.store, Normalize(w, th.target));
  }

  /** Injection keeps the container well formed, whether it succeeds or
      raises: keys stay unique, and every entry is a partial of its own
      function or a singleton of a live object of its own class. */
  lemma {:induction false} InjectKeepsWellFormed(ctx: Ctx, fuel: nat, s: Store, t: TypeId)
    requires WellFormed(ctx.w, s)
    ensures WellFormed(ctx.w, Inject(ctx, fuel, s, t).store)
    decreases fuel, 2, 0
  {
    var n := Normalize(ctx.w, t);
    if Get(s, n).None? && fuel > 0 {
      InjectBodyKeepsWellFormed(ctx, fuel, s, n);
    }
  }

  lemma {:induction false} InjectBodyKeepsWellFormed(ctx: Ctx, fuel: nat, s: Store, n: TypeId)
    requires fuel > 0 && WellFormed(ctx.w, s)
    ensures WellFormed(ctx.w, InjectBody(ctx, fuel, s, n).store)
    decreases fuel, 1, 0
  {
    if ctx.w.hints(n).Some? {
      var fields := ctx.w.hints(n).value;
      var r := InjectFields(ctx, fuel, s, fields, map[]);
      InjectFieldsKeepsWellFormed(ctx, fuel, s, fields, map[]);
      if r.res.Ok? && Set(ctx.w, r.store, n, r.res.value).Ok? {
        SetKeepsWellFormed(ctx.w, r.store, n, r.res.value);
      }
    }
  }

  lemma {:induction false} InjectFieldsKeepsWellFormed(ctx: Ctx, fuel: nat, s: Store, fields: seq<FieldDecl>, kwargs: Kwargs)
    requires fuel > 0 && WellFormed(ctx.w, s)
    ensures WellFormed(ctx.w, InjectFields(ctx, fuel, s, fields, kwargs).store)
    decreases fuel, 0, |fields|
  {
    if |fields| > 0 {
      var name := fields[0].name;
      match fields[0].kind
      case ClassRef(args) =>
        if |args| > 0 {
          var p := args[0];
          match Lookup(ctx.cfg, p)
          case None => InjectFieldsKeepsWellFormed(ctx, fuel, s, fields[1..], kwargs);
          case Some(impl) =>
            if MatchInterface(ctx.w, impl, p, ctx.strict) {
              InjectFieldsKeepsWellFormed(ctx, fuel, s, fields[1..], kwargs[name := ClassVal(impl)]);
            }
        }
      case Instance(a) =>
        var p := Normalize(ctx.w, a);
        match Lookup(ctx.cfg, p)
        case None => InjectFieldsKeepsWellFormed(ctx, fuel, s, fields[1..], kwargs);
        case Some(impl) =>
          if MatchInterface(ctx.w, impl, p, ctx.strict) {
            var d := Provide(ctx, fuel - 1, s, impl);
            ProvideKeepsWellFormed(ctx, fuel - 1, s, impl);
            if d.res.Ok? {
              InjectFieldsKeepsWellFormed(ctx, fuel, d.store, fields[1..], kwargs[name := d.res.value]);
            }
          }
    }
  }

  lemma {:induction false} ProvideKeepsWellFormed(ctx: Ctx, fuel: nat, s: Store, impl: TypeId)
    requires WellFormed(ctx.w, s)
    ensures WellFormed(ctx.w, Provide(ctx, fuel, s, impl).store)
    decreases fuel, 3, 0
  {
    var d := Inject(ctx, fuel, s, impl);
    InjectKeepsWellFormed(ctx, fuel, s, impl);
    if d.res.Ok? && Call(ctx.w, d.store.heap, d.res.value).Ok? {
      HeapGrowthKeepsWellFormed(ctx.w, d.store, Call(ctx.w, d.store.heap, d.res.value).value.1);
    }
  }

  /** A flush keeps the container well formed. */
  lemma {:induction false} FlushKeepsWellFormed(w: World, inj: Injector)
    requires LazyValid(inj) && WellFormed(w, inj.store)
    ensures WellFormed(w, DoLazyInjections(w, inj).inj.store)
    decreases |inj.postponed|
  {
    if |inj.postponed| > 0 {
      var th, o, next := FlushUnfolds(w, inj);
      var popped := inj.(postponed := o.inj.postponed);
      InjectKeepsWellFormed(CtxOf(w, popped), popped.limit, popped.store, th.target);
      if o.res.Ok? {
        FlushKeepsWellFormed(w, next);
      }
    }
  }

  /** Calling a lazy wrapper keeps the container well formed. */
  lemma CallLazyKeepsWellFormed(w: World, inj: Injector, cell: nat)
    requires cell < |inj.cells| && WellFormed(w, inj.store)
    ensures WellFormed(w, CallLazy(w, inj, cell).inj.store)
  {
    var r := CallLazy(w, inj, cell);
    if r.res.Ok? {
      HeapGrowthKeepsWellFormed(w, inj.store, r.inj.store.heap);
    }
  }
}

=== FILE: ordered_maps.dfy ===
/**
 Insertion-ordered dictionaries, as Python's `dict` and `OrderedDict`:
 a list of (key, value) entries in first-insertion order. `Valid` says that
 no key appears twice; assigning to an existing key replaces its value in
 place, assigning to a new key appends it.
 */
module OrderedMaps {
  import opened Base

  type Entries<K, V> = seq<(K, V)>

  function Keys<K, V>(m: Entries<K, V>): (ks: seq<K>)
    ensures |ks| == |m|
    ensures forall i :: 0 <= i < |m| ==> ks[i] == m[i].0
  {
    if |m| == 0 then [] else [m[0].0] + Keys(m[1..])
  }

  ghost predicate Valid<K, V>(m: Entries<K, V>) {
    forall i, j :: 0 <= i < j < |m| ==> m[i].0 != m[j].0
  }

  /** `m.get(k)`: the value of the first entry with key `k`. */
  function Get<K(==,!new), V>(m: Entries<K, V>, k: K): (r: Option<V>)
    ensures r.Some? <==> k in Keys(m)
    ensures r.Some? ==> (k, r.value) in m
  {
    if |m| == 0 then None
    else if m[0].0 == k then Some(m[0].1)
    else
      KeysCons(m);
      Get(m[1..], k)
  }

  /** `m[k] = v`: replaces the value of an existing key without moving it,
      or appends a new key at the end. */
  function Set<K(==,!new), V>(m: Entries<K, V>, k: K, v: V): (r: Entries<K, V>)
    ensures Get(r, k) == Some(v)
    ensures forall k' :: k' != k ==> Get(r, k') == Get(m, k')
    ensures Keys(r) == if k in Keys(m) then Keys(m) else Keys(m) + [k]
  {
    if |m| == 0 then [(k, v)]
    else
      KeysCons(m);
      if m[0].0 == k then
        var r := [(k, v)] + m[1..];
        KeysCons(r);
        assert r[1..] == m[1..];
        assert Get(r, k) == Some(v);
        r
      else
        var rest := Set(m[1..], k, v);
        var r := [m[0]] + rest;
        KeysCons(r);
        assert r[1..] == rest;
        assert Get(r, k) == Get(rest, k);
        assert k in Keys(m) <==> k in Keys(m[1..]);
        r
  }

  lemma {:induction false} SetAppendsNewKey<K(!new), V>(m: Entries<K, V>, k: K, v: V)
    requires k !in Keys(m)
    ensures Set(m, k, v) == m + [(k, v)]
    decreases |m|
  {
    if |m| > 0 {
      KeysCons(m);
      assert m[0].0 != k;
      SetAppendsNewKey(m[1..], k, v);
      AppendAssoc([m[0]], m[1..], [(k, v)]);
      assert [m[0]] + m[1..] == m;
    }
  }

  /** Assigning a key adds no entry other than the assigned one. */
  lemma {:induction false} SetEntries<K(!new), V>(m: Entries<K, V>, k: K, v: V)
    ensures forall e :: e in Set(m, k, v) ==> e == (k, v) || e in m
    decreases |m|
  {
    if |m| > 0 && m[0].0 != k {
      SetEntries(m[1..], k, v);
    }
  }

  /** Assigning a key never creates a duplicate. */
  lemma {:induction false} SetKeepsValid<K(!new), V>(m: Entries<K, V>, k: K, v: V)
    requires Valid(m)
    ensures Valid(Set(m, k, v))
    decreases |m|
  {
    if |m| > 0 {
      DistinctKeys(m);
      KeysCons(m);
      if m[0].0 == k {
        var r := [(k, v)] + m[1..];
        assert r[1..] == m[1..];
        DistinctKeys(r);
      } else {
        SetKeepsValid(m[1..], k, v);
        var rest := Set(m[1..], k, v);
        var r := [m[0]] + rest;
        assert r[1..] == rest;
        KeysCons(r);
        DistinctKeys(r);
      }
    }
  }

  /** `m.pop(k)`: drops the entry with key `k`. */
  function Remove<K(==,!new), V>(m: Entries<K, V>, k: K): (r: Entries<K, V>)
    ensures Get(r, k) == None
    ensures forall k' :: k' != k ==> Get(r, k') == Get(m, k')
    ensures forall e :: e in r ==> e in m
  {
    if |m| == 0 then []
    else
      KeysCons(m);
      if m[0].0 == k then Remove(m[1..], k)
      else
        var rest := Remove(m[1..], k);
        KeysCons([m[0]] + rest);
        [m[0]] + rest
  }

  lemma {:induction false} RemoveKeepsValid<K(!new), V>(m: Entries<K, V>, k: K)
    requires Valid(m)
    ensures Valid(Remove(m, k))
    decreases |m|
  {
    if |m| > 0 {
      KeysCons(m);
      RemoveKeepsValid(m[1..], k);
      if m[0].0 != k {
        var rest := Remove(m[1..], k);
        DistinctKeys(m);
        forall i | 0 <= i < |rest| ensures rest[i].0 != m[0].0 {
          var e := rest[i];
          assert e in m[1..];
          var idx :| 0 <= idx < |m[1..]| && m[1..][idx] == e;
          assert Keys(m[1..])[idx] == e.0;
        }
        DistinctKeys(rest);
        KeysCons([m[0]] + rest);
        DistinctKeys([m[0]] + rest);
      }
    }
  }

  lemma KeysCons<K, V>(m: Entries<K, V>)
    requires |m| > 0
    ensures Keys(m) == [m[0].0] + Keys(m[1..])
  {
  }

  /** `Valid` read off the key list: distinct keys, and the head is not in the tail. */
  lemma DistinctKeys<K, V>(m: Entries<K, V>)
    ensures Valid(m) <==> (|m| == 0 || (m[0].0 !in Keys(m[1..]) && Valid(m[1..])))
  {
    if |m| > 0 && m[0].0 !in Keys(m[1..]) && Valid(m[1..]) {
      forall i, j | 0 <= i < j < |m| ensures m[i].0 != m[j].0 {
        if i == 0 {
          assert m[j].0 == Keys(m[1..])[j - 1];
        } else {
          assert m[i] == m[1..][i - 1] && m[j] == m[1..][j - 1];
        }
      }
    }
    if |m| > 0 && Valid(m) {
      forall j | 0 <= j < |m[1..]| ensures Keys(m[1..])[j] != m[0].0 {
        assert m[j + 1].0 != m[0].0;
      }
      forall i, j | 0 <= i < j < |m[1..]| ensures m[1..][i].0 != m[1..][j].0 {
        assert m[i + 1].0 != m[j + 1].0;
      }
    }
  }

  /** `dict(m)` viewed as an unordered map: `{**m}`. */
  function ToMap<K(==,!new), V>(m: Entries<K, V>): (r: map<K, V>)
    ensures forall k :: k in r <==> k in Keys(m)
    ensures forall k :: k in r ==> Get(m, k) == Some(r[k])
  {
    if |m| == 0 then map[]
    else
      KeysCons(m);
      ToMap(m[1..])[m[0].0 := m[0].1]
  }

  /** Looking a key up in a list extended at the back finds the front first. */
  lemma {:induction false} GetAppend<K(!new), V>(a: Entries<K, V>, b: Entries<K, V>, k: K)
    ensures Get(a + b, k) == if k in Keys(a) then Get(a, k) else Get(b, k)
    decreases |a|
  {
    if |a| == 0 {
      assert a + b == b;
    } else {
      assert (a + b)[1..] == a[1..] + b;
      KeysCons(a);
      GetAppend(a[1..], b, k);
    }
  }

  /** Assigning a key that is not among the first entries leaves those entries alone. */
  lemma {:induction false} SetKeepsPrefix<K(!new), V>(p: Entries<K, V>, m: Entries<K, V>, k: K, v: V)
    requires p <= m && k !in Keys(p)
    ensures p <= Set(m, k, v)
    decreases |p|
  {
    if |p| > 0 {
      KeysCons(p);
      assert m[0] == p[0];
      SetKeepsPrefix(p[1..], m[1..], k, v);
    }
  }

  /** A key among the first entries is found there. */
  lemma GetPrefix<K(!new), V>(p: Entries<K, V>, m: Entries<K, V>, k: K)
    requires p <= m && k in Keys(p)
    ensures Get(m, k) == Get(p, k)
  {
    assert m == p + m[|p|..];
    GetAppend(p, m[|p|..], k);
  }

  lemma KeysPrefix<K, V>(p: Entries<K, V>, m: Entries<K, V>)
    requires p <= m
    ensures Keys(p) <= Keys(m)
  {
    assert Keys(m)[..|p|] == Keys(p);
  }

  /** In a list without duplicate keys, every entry is what `Get` finds. */
  lemma {:induction false} ValidGet<K(!new), V>(m: Entries<K, V>, k: K, v: V)
    requires Valid(m) && (k, v) in m
    ensures Get(m, k) == Some(v)
    decreases |m|
  {
    DistinctKeys(m);
    if m[0] != (k, v) {
      assert (k, v) in m[1..];
      ValidGet(m[1..], k, v);
    }
  }
}

=== FILE: reflect.dfy ===
/**
 The Python runtime as the injector sees it, made explicit. Type hints,
 `get_origin`, `issubclass`, `isinstance(obj, type)`, `inspect.isfunction`,
 the client protocol check and the constructors of user classes are not
 modelled; they are the parameters of a `World`. Objects live in a heap: creating an object appends
 a record to it, so two objects are the same object exactly when their
 addresses are equal. Calling a plain function appends a record of the call
 too, and the function's return value is represented by that record: what
 the function body computes is not modelled.
 */
module Reflect {
  import opened Base

  /** A declared dependency field, as one item of `get_type_hints(obj)`. */
  datatype FieldKind =
    | Instance(annotation: TypeId)  // `name: P`: the field wants an instance
    | ClassRef(args: seq<TypeId>)   // `name: Type[P]`: the field wants a class; `args` is `get_args`

  datatype FieldDecl = FieldDecl(name: string, kind: FieldKind)

  /** A value the injector passes as a keyword argument. */
  datatype Value =
    | Ref(addr: nat)       // an object in the heap
    | ClassVal(cls: TypeId) // a class (or function) passed as itself

  type Kwargs = map<string, Value>

  /** An object, with the class (or function) that produced it and the
      keyword arguments it was produced from. */
  datatype ObjRecord = ObjRecord(cls: TypeId, kwargs: Kwargs)

  type Heap = seq<ObjRecord>

  /** What a callable is: a class (`isinstance(obj, type)`), a plain function
      (`inspect.isfunction`), or another callable that is neither, such as a
      subscripted generic `G[int]`, a `functools.partial` or a bound method. */
  datatype CallableKind = Class | Function | OtherCallable

  datatype World = World(
    hints: TypeId -> Option<seq<FieldDecl>>, // `get_type_hints`, inherited fields included; None: it raised TypeError
    origin: TypeId -> Option<TypeId>,         // `get_origin`
    isSubtype: (TypeId, TypeId) -> bool,      // `issubclass` where it is defined
    isCheckable: TypeId -> bool,              // `issubclass(cls, iface)` does not raise for a class `cls`
    kind: TypeId -> CallableKind,             // class, plain function, or neither
    isClient: TypeId -> bool,                 // `issubclass(cls, ClientProtocol)` for a class: it has `connect` and `disconnect`
    accepts: (TypeId, Kwargs) -> bool)        // calling the class or function with these kwargs does not raise TypeError

  /** `inspect.isfunction(obj)`. */
  predicate IsFunction(w: World, t: TypeId) {
    w.kind(t).Function?
  }

  /** `isinstance(obj, type)`: a class, the only kind `issubclass` accepts. */
  predicate IsClass(w: World, t: TypeId) {
    w.kind(t).Class?
  }

  /** `get_origin(obj) or obj`: strips a generic alias down to its class. */
  function Normalize(w: World, t: TypeId): TypeId {
    match w.origin(t)
    case Some(o) => o
    case None => t
  }

  /** Calling a class or a function with keyword arguments: a fresh object, or TypeError. */
  function Construct(w: World, heap: Heap, t: TypeId, kwargs: Kwargs): Result<(Value, Heap)> {
    if w.accepts(t, kwargs) then Ok((Ref(|heap|), heap + [ObjRecord(t, kwargs)]))
    else Err(TypeError)
  }

  predicate DistinctNames(fields: seq<FieldDecl>) {
    forall i, j :: 0 <= i < j < |fields| ==> fields[i].name != fields[j].name
  }

  /** `get_type_hints` returns a dict, so the field names of one type are distinct. */
  ghost predicate HintsAreDicts(w: World) {
    forall t :: w.hints(t).Some? ==> DistinctNames(w.hints(t).value)
  }
}

=== FILE: utils.dfy ===
/** The helpers the injector relies on: interface matching and `first`. */
module Utils {
  import opened Base
  import opened Reflect

  /** Whether `issubclass(cls, iface)` raises TypeError: when `cls` is not a
      class (a plain function, a generic alias such as `G[int]`, a partial, a
      bound method) or when the interface cannot be checked at run time (a
      protocol that is not runtime-checkable). */
  predicate CheckRaises(w: World, cls: TypeId, iface: TypeId) {
    !IsClass(w, cls) || !w.isCheckable(iface)
  }

  /** `issubclass(cls, iface)`: the subtype relation, or TypeError. */
  function IsSubclass(w: World, cls: TypeId, iface: TypeId): Result<bool> {
    if !IsClass(w, cls) then Err(TypeError)
    else if w.isCheckable(iface) then Ok(w.isSubtype(cls, iface))
    else Err(TypeError)
  }

  /** `match_interface`: the subtype relation where it can be checked; otherwise
      a non-match in strict mode and a match in lenient mode. */
  function MatchInterface(w: World, cls: TypeId, iface: TypeId, strict: bool): (r: bool)
    ensures !CheckRaises(w, cls, iface) ==> (r <==> w.isSubtype(cls, iface))
    ensures CheckRaises(w, cls, iface) && strict ==> !r
    ensures CheckRaises(w, cls, iface) && !strict ==> r
  {
    match IsSubclass(w, cls, iface)
    case Ok(b) => b
    case Err(_) => !strict
  }

  /** Strict validation never accepts a binding that lenient validation rejects. */
  lemma StrictImpliesLenient(w: World, cls: TypeId, iface: TypeId)
    ensures MatchInterface(w, cls, iface, true) ==> MatchInterface(w, cls, iface, false)
  {
  }

  /** The two modes disagree exactly when the subclass check raises: an
      implementation that is not a class, or an interface that cannot be checked. */
  lemma ModesDifferOnlyWhenUncheckable(w: World, cls: TypeId, iface: TypeId)
    ensures MatchInterface(w, cls, iface, true) != MatchInterface(w, cls, iface, false)
            <==> CheckRaises(w, cls, iface)
  {
  }

  /** An implementation that is not a class (a function, a generic alias such
      as `G[int]`, a partial) bound to a checkable interface: strict
      validation rejects it and lenient validation accepts it, whatever the
      subtype relation says. */
  lemma NonClassBindingExample(w: World, impl: TypeId, iface: TypeId)
    requires !IsClass(w, impl) && w.isCheckable(iface)
    ensures !MatchInterface(w, impl, iface, true) && MatchInterface(w, impl, iface, false)
  {
  }

  /** `first(iterable)`: the first element, or StopIteration on an empty one. */
  function First<T>(s: seq<T>): (r: Result<T>)
    ensures r.Ok? <==> |s| > 0
    ensures r.Ok? ==> r.value == s[0]
    ensures r.Err? ==> r.error == StopIteration
  {
    if |s| == 0 then Err(StopIteration) else Ok(s[0])
  }
}
